=== FILE: README.md ===
# DnsPolicy controller core, modelled in Dafny

This project models the core of the DNS mesh controller. The controller is a
Kubernetes operator. It watches `DnsPolicy` resources and indexes each live,
valid policy in memory under its *selector hash*. The selector hash is the
SHA-256 digest, in lowercase hex, of the policy's target selector, or of its
subject when the target selector is empty. A small HTTP service then answers
`GET /api/policies?hash=…` from that index, and `GET /healthz` reports how
many policies are indexed.

The model is built from immutable values and pure functions:

- `Strings` holds string order and sorting. `LessEq` is lexicographic order
  on Unicode scalar values, which matches Go's byte-wise order on the
  strings' UTF-8 encodings.
- `Hex` holds lowercase hex encoding and its decoder.
- `Types` holds the `DnsPolicy` resource: spec, status, conditions and
  metadata.
- `Fingerprint` holds the selector hash and the spec hash. SHA-256 is a
  function parameter `sha` about which nothing is assumed; it is not even
  assumed to be injective. The JSON document being digested is a structured
  `Encoding` value: the sorted pair list, and the sorted block list.
- `PolicyIndex` holds the two-map index, from hash to policy and from
  identity to hash.
- `Conditions` holds insert-or-update of status conditions.
- `Finalizers` holds the finalizer list helpers, with controller-runtime's
  `controllerutil` semantics.
- `Reconciler` holds one reconcile invocation as a step function. Its inputs
  are the fetch outcome, the outcome of the single store write the step may
  issue, the index, `sha` and the current time. It returns:
  - the new index;
  - the trace of effects;
  - the in-memory object;
  - `Ok` or the error returned to the dispatcher.
- `ApiServer` holds the two handlers as functions from the request and the
  index to a status code and a body.
- `System` holds runs of many reconcile steps and end-to-end properties of
  what the service then serves.

## Model

| member | source | states |
|---|---|---|
| Strings.Sort | internal/controller/hash.go:36-40 | `sort.Strings`: the result is sorted, is a permutation of the input, and contains exactly the input's elements |
| Strings.SortedUnique | internal/controller/hash.go:40 | two sorted permutations of one sequence are equal, so the sorted order of a key list is fully determined |
| Strings.SortedKeys | internal/controller/hash.go:36-46 | a map's keys listed strictly ascending, each exactly once |
| Strings.CollectThenSortIsSortedKeys | internal/controller/hash.go:36-40 | ranging over the map in any order and then sorting gives the same key list |
| Strings.SortIdempotent | internal/controller/hash.go:77-79 | sorting an already sorted block list again changes nothing |
| Hex.EncodeToString | internal/controller/hash.go:56 | `hex.EncodeToString` yields exactly two lowercase hex digits per byte |
| Hex.DecodeEncode | internal/controller/hash.go:56 | decoding the hex text gives back the digest bytes, so the encoding loses nothing |
| Hex.EncodeDecode | internal/controller/hash.go:56 | every even-length lowercase hex string is the encoding of the bytes it decodes to |
| Hex.EncodeInjective | internal/controller/hash.go:56 | distinct digests give distinct hex strings |
| Fingerprint.CanonicalPairs | internal/controller/hash.go:42-46 | the label map's entries listed once each, with keys strictly ascending |
| Fingerprint.CanonicalPairsUnique | internal/controller/hash.go:42-49 | any strictly key-ordered listing of the map's entries is the canonical one |
| Fingerprint.RangeOrderIrrelevant | internal/controller/hash.go:36-46 | the encoding built from keys collected in any range order is the canonical listing |
| Fingerprint.ComputeSelectorHash | internal/controller/hash.go:30-57 | the result is empty exactly when the selector is empty; otherwise it is 64 lowercase hex digits |
| Fingerprint.SelectorHashOfAnyListing | internal/controller/hash.go:36-56 | the selector hash depends only on the set of entries, never on map iteration order |
| Fingerprint.ComputeSpecHash | internal/controller/hash.go:61-105 | the spec hash is 64 lowercase hex digits; the caller's block list is left sorted in place as a permutation of itself; every other spec field is untouched |
| Fingerprint.SpecHashBlockListOrderIrrelevant | internal/controller/hash.go:74-79 | two specs whose block lists are permutations of each other, with the same target selector, have equal spec hashes |
| Fingerprint.SpecHashIgnoresSubjectAndDryRun | internal/controller/hash.go:63-71 | Subject and DryRun take no part in the spec hash |
| Fingerprint.SpecHashSelectorCanonical | internal/controller/hash.go:82-94 | the spec encoding canonicalises the target selector exactly as the selector hash does |
| Fingerprint.SpecHashSideEffectStable | internal/controller/hash.go:74-79 | hashing the spec the call leaves behind gives the same hash and reorders nothing further |
| PolicyIndex.Empty | internal/controller/policy_index.go:41-46 | a new index is empty and satisfies the bijection between its two maps |
| PolicyIndex.GetFindsOwner | internal/controller/policy_index.go:85-93 | `Get` returns a policy exactly when one is stored under the hash, and otherwise none (the Go `nil`); under the bijection, the policy found is the one whose identity the reverse map sends to that hash |
| PolicyIndex.Size | internal/controller/policy_index.go:107-112 | the number of forward entries, zero exactly for an empty index |
| PolicyIndex.Upsert | internal/controller/policy_index.go:50-68 | after the call, the hash maps to the policy and the policy's identity maps to the hash |
| PolicyIndex.UpsertEffect | internal/controller/policy_index.go:59-67 | only the identity's previous hash, when it differs, is dropped; every other entry in both maps is untouched |
| PolicyIndex.UpsertIdempotent | internal/controller/policy_index.go:50-68 | repeating an upsert with the same policy and hash changes nothing |
| PolicyIndex.UpsertMovesEntry | internal/controller/policy_index.go:59-67 | re-upserting under a new hash removes the old hash entry and records the new one |
| PolicyIndex.UpsertPreservesConsistency | internal/controller/policy_index.go:50-68 | an upsert keeps the bijection when the hash is free or already owned by the same identity |
| PolicyIndex.UpsertOverOtherOwner | internal/controller/policy_index.go:50-68 | an upsert onto a hash owned by another identity breaks the bijection; deleting the evicted owner then removes the new entry |
| PolicyIndex.Delete | internal/controller/policy_index.go:71-81 | the identity has no reverse entry afterwards, and the hash it pointed at has no forward entry |
| PolicyIndex.DeleteEffect | internal/controller/policy_index.go:71-81 | nothing else changes, and deleting an unknown identity is a no-op |
| PolicyIndex.DeletePreservesConsistency | internal/controller/policy_index.go:71-81 | a delete keeps the bijection |
| PolicyIndex.DeleteShrinksByOne | internal/controller/policy_index.go:71-81 | deleting an indexed identity shrinks the index by exactly one |
| PolicyIndex.GetAll | internal/controller/policy_index.go:96-105 | returns exactly the stored policies, one element per forward entry, so as many elements as `Size` |
| PolicyIndex.SizeCountsIdentities | internal/controller/policy_index.go:108-112 | under the bijection, `Size` (the forward entries) equals the number of indexed identities |
| Conditions.Find | internal/controller/dnspolicy_controller.go:211-219 | finds a condition of the type exactly when the list holds one, and what it finds is the first entry of that type, where the loop breaks |
| Conditions.Update | internal/controller/dnspolicy_controller.go:209-223 | the list keeps its length or grows by one, and when it grows the new condition was appended at the end |
| Conditions.UpdateAppendsAbsent | internal/controller/dnspolicy_controller.go:221-223 | a condition type that is not present is appended at the end |
| Conditions.UpdateSameStatusKeeps | internal/controller/dnspolicy_controller.go:212-218 | an entry of the same type and status is left untouched, with its old reason, message and time |
| Conditions.UpdateReplacesChanged | internal/controller/dnspolicy_controller.go:212-218 | the first entry of the type is replaced in place when its status differs; all other positions are unchanged |
| Conditions.UpdateEstablishesStatus | internal/controller/dnspolicy_controller.go:198-224 | afterwards, the first condition of the type carries the requested status |
| Conditions.UpdateKeepsTypesUnique | internal/controller/dnspolicy_controller.go:198-224 | the update never creates a second entry of one type, and adds exactly the new type |
| Finalizers.AddFinalizer | internal/controller/dnspolicy_controller.go:95-96 | a list that already holds the finalizer is returned unchanged; otherwise the finalizer is appended once at the end |
| Finalizers.RemoveFinalizer | internal/controller/dnspolicy_controller.go:84 | every occurrence of the finalizer is gone; the other entries keep their multiplicities and their relative order |
| Finalizers.RemoveFinalizerConcat | internal/controller/dnspolicy_controller.go:84 | removal distributes over concatenation, so survivors stay in order |
| Finalizers.RemoveAfterAdd | internal/controller/dnspolicy_controller.go:84-96 | adding a finalizer to a list without it and then removing it restores the original list |
| Reconciler.SetCondition | internal/controller/dnspolicy_controller.go:198-224 | only the in-memory object's conditions change, and the condition of the type has the requested status |
| Reconciler.Step | internal/controller/dnspolicy_controller.go:59-195 | the new index is the trace's index effects replayed; every upserted policy is live and carries the finalizer; at most one store write happens, and only its failure yields the write-failure errors |
| Reconciler.Reconcile | internal/controller/dnspolicy_controller.go:59-195 | the reconciler as written, with all of `Step`'s trace guarantees: replayed index, guarded upserts, at most one store write, and write-failure errors only after a failed write |
| Reconciler.ReconcileCorrected | internal/controller/dnspolicy_controller.go:59-195 | the reconciler with the corrected conflict check, with the same trace guarantees |
| Reconciler.Commit | internal/controller/dnspolicy_controller.go:159-194 | the success tail: the index is exactly the upsert of the snapshot under the selector hash, and equals the replay of the trace; at most one store write, and it is a status update; the only error is that write's failure |
| Reconciler.HashSource | internal/controller/dnspolicy_controller.go:115-129 | the target selector when it is non-empty, otherwise the subject |
| Reconciler.ConflictRulesCompared | internal/controller/dnspolicy_controller.go:141-142 | `Conflicts` under either rule never blocks a policy's own entry, and the corrected rule refuses everything the as-written rule refuses |
| Reconciler.NotFoundDeletes | internal/controller/dnspolicy_controller.go:64-70 | a vanished object is dropped from the index, nothing is written, and the step succeeds |
| Reconciler.FetchErrorLeavesIndex | internal/controller/dnspolicy_controller.go:71-72 | any other fetch error is returned, and the index is unchanged |
| Reconciler.DeletionCleansUpBeforeRelease | internal/controller/dnspolicy_controller.go:76-91 | on deletion, the index entry goes first and then one Update releases the finalizer; the released object is the fetched one with every occurrence of this controller's finalizer removed, and other finalizers kept with their counts and order; if that Update fails, the step fails but the entry is already gone |
| Reconciler.DeletionWithoutFinalizerIsNoop | internal/controller/dnspolicy_controller.go:76-92 | deletion without the finalizer does nothing |
| Reconciler.FinalizerAddedBeforeIndexing | internal/controller/dnspolicy_controller.go:94-104 | the finalizer is added by one Update, which writes the fetched object with only the finalizer appended; the object is not indexed in that step |
| Reconciler.InvalidSpecNotPersisted | internal/controller/dnspolicy_controller.go:106-113 | with neither a target selector nor a subject, the step fails and the index is unchanged; Ready=False is set in memory but never written |
| Reconciler.SelectorHashSource | internal/controller/dnspolicy_controller.go:115-131 | the selector hash comes from the target selector, or else from the subject, and is always 64 hex digits |
| Reconciler.ConflictLeavesIndex | internal/controller/dnspolicy_controller.go:139-148 | a conflicting entry under the hash fails the step with DUPLICATE HASH, leaving the index and the store untouched |
| Reconciler.NameOnlyIgnoresNamespace | internal/controller/dnspolicy_controller.go:141-142 | the check as written treats the same name in another namespace as no conflict |
| Reconciler.SnapshotRecordsHashes | internal/controller/dnspolicy_controller.go:159-176 | the indexed snapshot records the selector hash, the spec hash and the generation |
| Reconciler.CommitIndexesFirst | internal/controller/dnspolicy_controller.go:178-179 | the snapshot is upserted under the selector hash as the first effect and stays indexed whatever the status write does |
| Reconciler.CommitWritesStatusIffChanged | internal/controller/dnspolicy_controller.go:159-194 | the status is written exactly when a recorded field changed; the written object is the snapshot with Ready=True added, so it carries the new selector hash, spec hash and observed generation and the sorted block list; only its failure fails the step |
| Reconciler.CorrectedStepPreservesConsistency | internal/controller/dnspolicy_controller.go:139-179 | with namespace and name both compared, every step keeps the index bijection |
| Reconciler.CrossNamespaceCollisionBreaksIndex | internal/controller/dnspolicy_controller.go:139-179 | as written, a same-named policy from another namespace is admitted onto an owned hash; the bijection breaks, and the first policy's deletion later removes the second's entry |
| ApiServer.HandleGetPolicy | internal/controller/api_server.go:85-113 | a non-GET gets 405; an absent or empty hash gets 400; a hash not in the index gets 404; otherwise 200 with the indexed policy |
| ApiServer.GetPolicyReadsOnlyLookup | internal/controller/api_server.go:99 | the response depends on the index only through the lookup of the requested hash |
| ApiServer.HandleHealthz | internal/controller/api_server.go:116-123 | for any method: 200, status "ok" and the index size |
| ApiServer.HealthzReadsOnlySize | internal/controller/api_server.go:116-123 | the health response depends on the index only through its size |
| System.HealthzCountsIdentities | internal/controller/api_server.go:119-122 | under the bijection, the reported count is the number of indexed identities |
| System.StepKeepsWellKeyed | internal/controller/dnspolicy_controller.go:131-179 | every step keeps each key a 64-digit hash equal to its snapshot's recorded selector hash, on a live, finalized object |
| System.RunKeepsWellKeyed | internal/controller/dnspolicy_controller.go:59-195 | every run of steps keeps the index well keyed |
| System.CorrectedRunPreservesConsistency | internal/controller/dnspolicy_controller.go:59-195 | with the corrected check, no sequence of invocations breaks the bijection, and `Size` equals the number of identities |
| System.ReconciledPolicyIsServed | internal/controller/api_server.go:99-112 | after a successful commit, GET with the selector hash answers 200 with the snapshot, and the snapshot's status records that hash |
| System.ShortHashNotFound | internal/controller/api_server.go:99-103 | in a well-keyed index, a hash that is not 64 characters long, such as `deadbeef`, is answered 404 |
| System.SecondClaimantRejected | internal/controller/dnspolicy_controller.go:139-148 | once one identity holds a hash, a second identity computing that hash is refused and the first keeps the entry |
| System.CrossNamespaceCollisionExample | internal/controller/dnspolicy_controller.go:139-179 | concrete case: after `team-a/shared` is indexed, `team-b/shared` with the same selector is admitted as written and the bijection breaks; a later not-found for `team-a/shared` then deletes `team-b/shared`'s entry, and the corrected check refuses `team-b/shared` instead |

## Left out

- SHA-256 is a parameter, and the JSON serialisation is a structured `Encoding` value rather than bytes. Hash collisions are not ruled out: nothing assumes `sha` is injective.
- `json.Marshal` errors, in the selector hash and the spec hash (hash.go:49-52, 97-100): marshalling string maps and slices cannot fail, so these error paths and the reconciler's branches for them (dnspolicy_controller.go:132-137, 152-157) are not modelled.
- AllowList: hash.go:65-75 reads `spec.AllowList`, but the `DnsPolicySpec` in api/v1alpha1/dnspolicy_types.go:27-39 has no such field, so the model's spec encoding has only the target selector and the block list.
- Fingerprint.ComputeSpecHash: the model does not tell a `nil` target selector or block list from an empty one; both are the empty Dafny map or sequence. Go's `json.Marshal` writes `null` for `nil` and `{}` or `[]` for empty, so the source gives the two different spec hashes while the model gives them one. For the same reason, Fingerprint.SpecHashBlockListOrderIrrelevant equates a `nil` block list with an empty one, which Go does not. The selector hash is unaffected, because it returns "" for both (hash.go:31-33).
- The second emptiness check at dnspolicy_controller.go:117-123 cannot be reached after the check at 107-113, so it is not modelled separately.
- The reader/writer lock and the `DeepCopy` calls of the index: the index is a value, so every operation is atomic and nothing is aliased.
- System.Run, Reconciler.CorrectedStepPreservesConsistency and System.CorrectedRunPreservesConsistency treat a whole reconcile invocation as one atomic step, so they hold only when invocations never interleave. That is the case with controller-runtime's default of one worker (`MaxConcurrentReconciles` is 1), and `SetupWithManager` (internal/controller/dnspolicy_controller.go:226-235) sets no options. With several workers, the conflict check's `Get` (line 139) and the `Upsert` (line 179) each take the lock separately. Two identities with the same selector can then both pass the check against the same index, and the second upsert breaks the bijection even under the corrected rule (PolicyIndex.UpsertOverOtherOwner).
- Events, logging, `ctrl.Result` and requeue timing are not modelled. Each store write's success or failure is an input (`WriteOutcome`), and its error value is reduced to `Failure`.
- `metav1.Now()` is the `now` parameter; generations and timestamps are unbounded integers, not `int64`.
- The server's startup, route registration, shutdown and headers (api_server.go:36-82) are not modelled.
- The 500 answer when the JSON encoder fails (api_server.go:109-112) is not modelled, because the status line has already been sent by then.
- `GetAll`'s element order is whatever Go's map iteration gives. The method may choose any order, and the ghost `hashes` records which entry each element came from.
- ApiServer.HandleGetPolicy: the 200 body is the policy value, not its JSON bytes.

## Findings

| source | as written | input that shows it | evidently intended | confidence | as-written member | corrected member |
|---|---|---|---|---|---|---|
| internal/controller/dnspolicy_controller.go:139-148 | the duplicate-hash check compares only `Name`, so a policy whose name matches the indexed owner's, but in another namespace, is admitted; `Upsert` then overwrites the owner's entry while the owner's reverse entry still names the hash | `a/p` is indexed under hash `h`; then `b/p`, with a selector that hashes to `h`, is reconciled | compare the whole namespaced identity, so the second policy is refused with DUPLICATE HASH and the index stays a bijection (for invocations that do not interleave, as with the default single worker) | high (not executed) | System.CrossNamespaceCollisionExample | Reconciler.CorrectedStepPreservesConsistency |

=== FILE: api_server.dfy ===
/**
  The decision logic of the read service's two handlers, as pure functions
  of the request and the index. The handlers only read the index (through
  `Get` and `Size`), so they return no new index.
 */
module ApiServer {

  import opened Wrappers
  import opened Types
  import opened PolicyIndex

  const StatusOK: int := 200
  const StatusBadRequest: int := 400
  const StatusNotFound: int := 404
  const StatusMethodNotAllowed: int := 405

  const MethodGet: string := "GET"

  /**
    A response body: the policy snapshot (sent as JSON), the plain-text line
    `http.Error` writes, or the health report.
   */
  datatype Body =
    | PolicyJson(policy: DnsPolicy)
    | ErrorText(text: string)
    | HealthJson(status: string, indexedPolicies: nat)

  datatype Response = Response(code: int, body: Body)

  /** `http.Error` writes the message followed by a newline. */
  function Error(message: string, code: int): Response {
    Response(code, ErrorText(message + "\n"))
  }

  /** `URL.Query().Get("hash")`: the empty string when the parameter is absent. */
  function QueryHash(hashParam: Option<string>): string {
    if hashParam.Some? then hashParam.value else ""
  }

  /** GET /api/policies?hash=<selector hash> */
  function HandleGetPolicy(httpMethod: string, hashParam: Option<string>, idx: Index): (r: Response)
    ensures r.code in {StatusOK, StatusBadRequest, StatusNotFound, StatusMethodNotAllowed}
    ensures r.code == StatusMethodNotAllowed <==> httpMethod != MethodGet
    ensures r.code == StatusBadRequest <==> httpMethod == MethodGet && QueryHash(hashParam) == ""
    ensures r.code == StatusNotFound <==>
              httpMethod == MethodGet && QueryHash(hashParam) != "" && Get(idx, QueryHash(hashParam)) == None
    ensures r.code == StatusOK <==>
              httpMethod == MethodGet && QueryHash(hashParam) != "" && Get(idx, QueryHash(hashParam)).Some?
    ensures r.code == StatusOK ==> r.body == PolicyJson(Get(idx, QueryHash(hashParam)).value)
  {
    if httpMethod != MethodGet then
      Error("Method not allowed", StatusMethodNotAllowed)
    else
      var hash := QueryHash(hashParam);
      if hash == "" then
        Error("Missing 'hash' query parameter", StatusBadRequest)
      else
        var policy := Get(idx, hash);
        if policy.None? then
          Error("No policy found for hash: " + hash, StatusNotFound)
        else
          Response(StatusOK, PolicyJson(policy.value))
  }

  /** GET /healthz, for any method. */
  function HandleHealthz(httpMethod: string, idx: Index): (r: Response)
    ensures r.code == StatusOK
    ensures r.body.HealthJson? && r.body.status == "ok" && r.body.indexedPolicies == Size(idx)
  {
    Response(StatusOK, HealthJson("ok", Size(idx)))
  }

  /**
    The policy response depends on the index only through the lookup of the
    requested hash: two indexes that agree there answer alike.
   */
  lemma GetPolicyReadsOnlyLookup(httpMethod: string, hashParam: Option<string>, a: Index, b: Index)
    requires Get(a, QueryHash(hashParam)) == Get(b, QueryHash(hashParam))
    ensures HandleGetPolicy(httpMethod, hashParam, a) == HandleGetPolicy(httpMethod, hashParam, b)
  {
  }

  /** The health response depends on the index only through its size. */
  lemma HealthzReadsOnlySize(httpMethod: string, a: Index, b: Index)
    requires Size(a) == Size(b)
    ensures HandleHealthz(httpMethod, a) == HandleHealthz(httpMethod, b)
  {
  }
}

=== FILE: conditions.dfy ===
/**
  Status conditions as an ordered list with insert-or-update-by-type.
 */
module Conditions {

  import opened Wrappers
  import opened Types

  /** The first condition of the given type, if any. */
  function Find(conds: seq<Condition>, condType: string): (r: Option<Condition>)
    ensures r.Some? <==> exists i :: 0 <= i < |conds| && conds[i].condType == condType
    ensures r.Some? ==> r.value in conds && r.value.condType == condType
    ensures r.Some? ==> exists i :: (0 <= i < |conds| && conds[i] == r.value &&
              forall j :: 0 <= j < i ==> conds[j].condType != condType)
  {
    if |conds| == 0 then None
    else if conds[0].condType == condType then Some(conds[0])
    else Find(conds[1..], condType)
  }

  predicate HasType(conds: seq<Condition>, condType: string) {
    exists i :: 0 <= i < |conds| && conds[i].condType == condType
  }

  /** At most one entry per condition type. */
  predicate UniqueTypes(conds: seq<Condition>) {
    forall i, j :: 0 <= i < j < |conds| ==> conds[i].condType != conds[j].condType
  }

  /**
    Insert-or-update by type. The first entry of `c`'s type is replaced by
    `c` only when its status differs; with the same status it is kept as it
    is, old reason, message and timestamp included. Without such an entry
    `c` is appended.
   */
  function Update(conds: seq<Condition>, c: Condition): (r: seq<Condition>)
    ensures |conds| <= |r| <= |conds| + 1
    ensures |r| == |conds| + 1 ==> r == conds + [c]
    decreases |conds|
  {
    if |conds| == 0 then [c]
    else if conds[0].condType == c.condType then
      if conds[0].status != c.status then [c] + conds[1..] else conds
    else
      var rest := Update(conds[1..], c);
      assert conds == [conds[0]] + conds[1..];
      assert |rest| == |conds| ==> [conds[0]] + rest == [conds[0]] + (conds[1..] + [c]) == conds + [c];
      [conds[0]] + rest
  }

  /** A type not yet present is appended at the end. */
  lemma {:induction false} UpdateAppendsAbsent(conds: seq<Condition>, c: Condition)
    requires !HasType(conds, c.condType)
    ensures Update(conds, c) == conds + [c]
    decreases |conds|
  {
    if |conds| != 0 {
      assert !HasType(conds[1..], c.condType) by {
        forall i | 0 <= i < |conds[1..]| ensures conds[1..][i].condType != c.condType {
          assert conds[1..][i] == conds[i + 1];
        }
      }
      UpdateAppendsAbsent(conds[1..], c);
      assert conds == [conds[0]] + conds[1..];
    }
  }

  /** An entry of the same type and status makes the update a no-op. */
  lemma {:induction false} UpdateSameStatusKeeps(conds: seq<Condition>, c: Condition)
    requires Find(conds, c.condType).Some?
    requires Find(conds, c.condType).value.status == c.status
    ensures Update(conds, c) == conds
    decreases |conds|
  {
    if conds[0].condType == c.condType {
      assert Find(conds, c.condType) == Some(conds[0]);
    } else {
      assert Find(conds[1..], c.condType) == Find(conds, c.condType);
      UpdateSameStatusKeeps(conds[1..], c);
      assert Update(conds, c) == [conds[0]] + Update(conds[1..], c);
      assert conds == [conds[0]] + conds[1..];
    }
  }

  /**
    An entry of the same type with a different status is replaced in place
    by `c`; every other position is untouched.
   */
  lemma {:induction false} UpdateReplacesChanged(conds: seq<Condition>, c: Condition, k: nat)
    requires k < |conds| && conds[k].condType == c.condType
    requires forall i :: 0 <= i < k ==> conds[i].condType != c.condType
    requires conds[k].status != c.status
    ensures Update(conds, c) == conds[k := c]
    decreases |conds|
  {
    if k != 0 {
      UpdateReplacesChanged(conds[1..], c, k - 1);
      assert conds[k := c] == [conds[0]] + conds[1..][k - 1 := c];
    }
  }

  /** After the update a condition of `c`'s type carries `c`'s status. */
  lemma {:induction false} UpdateEstablishesStatus(conds: seq<Condition>, c: Condition)
    ensures Find(Update(conds, c), c.condType).Some?
    ensures Find(Update(conds, c), c.condType).value.status == c.status
    decreases |conds|
  {
    if |conds| != 0 && conds[0].condType != c.condType {
      UpdateEstablishesStatus(conds[1..], c);
    }
  }

  /** The update never adds a second entry of a type. */
  lemma {:induction false} UpdateKeepsTypesUnique(conds: seq<Condition>, c: Condition)
    requires UniqueTypes(conds)
    ensures UniqueTypes(Update(conds, c))
    ensures forall t :: HasType(Update(conds, c), t) <==> HasType(conds, t) || t == c.condType
    decreases |conds|
  {
    if |conds| != 0 && conds[0].condType != c.condType {
      var tail := conds[1..];
      UpdateKeepsTypesUnique(tail, c);
      var r := Update(conds, c);
      assert r == [conds[0]] + Update(tail, c);
      assert !HasType(tail, conds[0].condType) by {
        forall i | 0 <= i < |tail| ensures tail[i].condType != conds[0].condType {
          assert tail[i] == conds[i + 1];
        }
      }
      forall t ensures HasType(r, t) <==> HasType(conds, t) || t == c.condType {
        if t == c.condType {
          assert HasType(Update(tail, c), t);
          var j :| 0 <= j < |Update(tail, c)| && Update(tail, c)[j].condType == t;
          assert r[j + 1].condType == t;
        } else if HasType(conds, t) {
          var i :| 0 <= i < |conds| && conds[i].condType == t;
          if i == 0 {
            assert r[0].condType == t;
          } else {
            assert tail[i - 1].condType == t;
            assert HasType(Update(tail, c), t);
            var j :| 0 <= j < |Update(tail, c)| && Update(tail, c)[j].condType == t;
            assert r[j + 1].condType == t;
          }
        }
        if HasType(r, t) {
          var i :| 0 <= i < |r| && r[i].condType == t;
          if i != 0 {
            assert Update(tail, c)[i - 1].condType == t;
            if HasType(tail, t) {
              var j :| 0 <= j < |tail| && tail[j].condType == t;
              assert conds[j + 1].condType == t;
            }
          }
        }
      }
      forall i, j | 0 <= i < j < |r| ensures r[i].condType != r[j].condType {
        if i == 0 {
          assert Update(tail, c)[j - 1].condType == r[j].condType;
          assert HasType(Update(tail, c), r[j].condType);
        }
      }
    } else if |conds| != 0 {
      var r := Update(conds, c);
      assert |r| == |conds|;
      assert forall i :: 0 <= i < |r| ==> r[i].condType == conds[i].condType;
      assert r[0].condType == c.condType;
    } else {
      assert Update(conds, c)[0].condType == c.condType;
    }
  }
}

=== FILE: finalizers.dfy ===
/**
  The finalizer list helpers the reconciler uses, with the semantics of
  controller-runtime's `controllerutil`: add appends once, remove drops
  every occurrence and keeps the rest in order.
 */
module Finalizers {

  predicate ContainsFinalizer(finalizers: seq<string>, f: string) {
    f in finalizers
  }

  /** `a` is `b` with some elements left out, the rest in their order. */
  predicate IsSubsequence(a: seq<string>, b: seq<string>)
    decreases |b|
  {
    || |a| == 0
    || (|b| != 0 && if a[0] == b[0] then IsSubsequence(a[1..], b[1..]) else IsSubsequence(a, b[1..]))
  }

  /** Appends `f` unless it is already present, in which case the list is unchanged. */
  function AddFinalizer(finalizers: seq<string>, f: string): (r: seq<string>)
    ensures f in r
    ensures f in finalizers ==> r == finalizers
    ensures f !in finalizers ==> r == finalizers + [f]
    ensures multiset(r)[f] == if f in finalizers then multiset(finalizers)[f] else 1
  {
    if f in finalizers then finalizers else finalizers + [f]
  }

  /** Drops every occurrence of `f` and keeps the rest, in order and with their multiplicities. */
  function RemoveFinalizer(finalizers: seq<string>, f: string): (r: seq<string>)
    ensures f !in r
    ensures multiset(r) == multiset(finalizers)[f := 0]
    ensures IsSubsequence(r, finalizers)
    decreases |finalizers|
  {
    if |finalizers| == 0 then []
    else
      var rest := RemoveFinalizer(finalizers[1..], f);
      assert finalizers == [finalizers[0]] + finalizers[1..];
      if finalizers[0] == f then rest
      else
        assert ([finalizers[0]] + rest)[1..] == rest;
        [finalizers[0]] + rest
  }

  /** Removing distributes over concatenation, so the survivors keep their relative order. */
  lemma {:induction false} RemoveFinalizerConcat(a: seq<string>, b: seq<string>, f: string)
    ensures RemoveFinalizer(a + b, f) == RemoveFinalizer(a, f) + RemoveFinalizer(b, f)
    decreases |a|
  {
    if |a| != 0 {
      assert (a + b)[1..] == a[1..] + b;
      RemoveFinalizerConcat(a[1..], b, f);
    } else {
      assert a + b == b;
    }
  }

  /** Adding then removing the same finalizer restores a list that did not hold it. */
  lemma {:induction false} RemoveAfterAdd(finalizers: seq<string>, f: string)
    requires f !in finalizers
    ensures RemoveFinalizer(AddFinalizer(finalizers, f), f) == finalizers
    decreases |finalizers|
  {
    RemoveFinalizerConcat(finalizers, [f], f);
    RemoveAbsentKeeps(finalizers, f);
    assert [f][1..] == [];
  }

  /** Removing an absent finalizer changes nothing. */
  lemma {:induction false} RemoveAbsentKeeps(finalizers: seq<string>, f: string)
    requires f !in finalizers
    ensures RemoveFinalizer(finalizers, f) == finalizers
    decreases |finalizers|
  {
    if |finalizers| != 0 {
      RemoveAbsentKeeps(finalizers[1..], f);
      assert finalizers == [finalizers[0]] + finalizers[1..];
    }
  }
}

=== FILE: hash.dfy ===
/**
  Fingerprints of a policy: the selector hash, computed from a label map,
  and the spec hash, computed from the whole spec.

  Each fingerprint is the lowercase hex form of a SHA-256 digest of a
  canonical encoding. The encoding is modelled as a structured value (the
  sorted pair list and the sorted block list) rather than JSON bytes, and
  SHA-256 is a parameter `sha` about which nothing is assumed: in
  particular it is not assumed injective.
 */
module Fingerprint {

  import opened Strings
  import opened Hex
  import opened Types

  type Pair = (string, string)

  /** The documents that are serialised and digested. */
  datatype Encoding =
    | SelectorDoc(pairs: seq<Pair>)
    | SpecDoc(targetSelector: seq<Pair>, blockList: seq<string>)

  type Sha256 = Encoding -> Digest

  function KeysOf(ps: seq<Pair>): (ks: seq<string>)
    ensures |ks| == |ps|
    ensures forall i :: 0 <= i < |ps| ==> ks[i] == ps[i].0
  {
    seq(|ps|, i requires 0 <= i < |ps| => ps[i].0)
  }

  /** `ps` lists every entry of `m` once, keys strictly ascending. */
  ghost predicate ListsInKeyOrder(ps: seq<Pair>, m: map<string, string>) {
    && StrictlySorted(KeysOf(ps))
    && (forall k :: k in KeysOf(ps) <==> k in m)
    && (forall i :: 0 <= i < |ps| ==> ps[i].0 in m && m[ps[i].0] == ps[i].1)
  }

  /** The entries of `m` in the order `keys` gives. */
  function PairsInOrder(keys: seq<string>, m: map<string, string>): (ps: seq<Pair>)
    requires forall k :: k in keys ==> k in m
    ensures KeysOf(ps) == keys
    ensures forall i :: 0 <= i < |ps| ==> ps[i] == (keys[i], m[keys[i]])
  {
    seq(|keys|, i requires 0 <= i < |keys| => (keys[i], m[keys[i]]))
  }

  /** The canonical listing of a label map: its entries sorted by key. */
  function CanonicalPairs(m: map<string, string>): (ps: seq<Pair>)
    ensures ListsInKeyOrder(ps, m)
    ensures |ps| == |m|
  {
    PairsInOrder(SortedKeys(m.Keys), m)
  }

  /** A strictly sorted listing of a map is unique: it is the canonical one. */
  lemma CanonicalPairsUnique(ps: seq<Pair>, m: map<string, string>)
    requires ListsInKeyOrder(ps, m)
    ensures ps == CanonicalPairs(m)
  {
    var ks := SortedKeys(m.Keys);
    var cs := CanonicalPairs(m);
    assert Distinct(KeysOf(ps)) && Distinct(ks);
    DistinctSameElements(KeysOf(ps), ks);
    SortedUnique(KeysOf(ps), ks);
    assert |ps| == |cs|;
    forall i | 0 <= i < |ps| ensures ps[i] == cs[i] {
      assert KeysOf(ps)[i] == ks[i];
    }
  }

  /**
    The selector encoding Go builds: keys collected by ranging over the map
    (in whatever order the runtime picks), sorted, then re-inserted. Any
    such order yields the canonical listing.
   */
  lemma RangeOrderIrrelevant(m: map<string, string>, rangeOrder: seq<string>)
    requires Distinct(rangeOrder)
    requires forall k :: k in rangeOrder <==> k in m
    ensures PairsInOrder(Sort(rangeOrder), m) == CanonicalPairs(m)
  {
    CollectThenSortIsSortedKeys(rangeOrder, m.Keys);
  }

  /** The selector hash: empty for an empty map, otherwise 64 lowercase hex digits. */
  function ComputeSelectorHash(selector: map<string, string>, sha: Sha256): (r: string)
    ensures r == "" <==> |selector| == 0
    ensures |selector| != 0 ==> |r| == 64 && IsLowerHex(r)
  {
    if |selector| == 0 then ""
    else EncodeToString(sha(SelectorDoc(CanonicalPairs(selector))))
  }

  /**
    The selector hash depends only on the set of entries: any strictly key
    ordered listing of them is what gets digested.
   */
  lemma SelectorHashOfAnyListing(selector: map<string, string>, ps: seq<Pair>, sha: Sha256)
    requires |selector| != 0
    requires ListsInKeyOrder(ps, selector)
    ensures ComputeSelectorHash(selector, sha) == EncodeToString(sha(SelectorDoc(ps)))
  {
    CanonicalPairsUnique(ps, selector);
  }

  /** The spec hash together with the spec as the call leaves it. */
  datatype SpecHashResult = SpecHashResult(hash: string, spec: DnsPolicySpec)

  /** The normalised record the spec hash digests: target selector and block list only. */
  function SpecEncoding(spec: DnsPolicySpec): Encoding {
    SpecDoc(CanonicalPairs(spec.targetSelector), Sort(spec.blockList))
  }

  /**
    The spec hash. The block list is sorted in place in the source, because
    the normalised record shares the caller's slice; `r.spec` is the caller's
    spec after the call.
   */
  function ComputeSpecHash(spec: DnsPolicySpec, sha: Sha256): (r: SpecHashResult)
    ensures |r.hash| == 64 && IsLowerHex(r.hash)
    ensures Sorted(r.spec.blockList)
    ensures multiset(r.spec.blockList) == multiset(spec.blockList)
    ensures r.spec.targetSelector == spec.targetSelector
    ensures r.spec.subject == spec.subject && r.spec.dryRun == spec.dryRun
  {
    SpecHashResult(EncodeToString(sha(SpecEncoding(spec))), spec.(blockList := Sort(spec.blockList)))
  }

  /** Reordering the block list does not change the spec hash. */
  lemma SpecHashBlockListOrderIrrelevant(a: DnsPolicySpec, b: DnsPolicySpec, sha: Sha256)
    requires a.targetSelector == b.targetSelector
    requires multiset(a.blockList) == multiset(b.blockList)
    ensures ComputeSpecHash(a, sha).hash == ComputeSpecHash(b, sha).hash
  {
    SortPermutationInvariant(a.blockList, b.blockList);
  }

  /** Subject and DryRun take no part in the spec hash. */
  lemma SpecHashIgnoresSubjectAndDryRun(spec: DnsPolicySpec, subject: map<string, string>, dryRun: bool, sha: Sha256)
    ensures ComputeSpecHash(spec.(subject := subject, dryRun := dryRun), sha).hash
         == ComputeSpecHash(spec, sha).hash
  {
  }

  /**
    The target selector inside the spec encoding is canonicalised exactly as
    the selector hash canonicalises it: a non-empty target selector's
    selector hash digests that very listing.
   */
  lemma SpecHashSelectorCanonical(spec: DnsPolicySpec, sha: Sha256)
    ensures ListsInKeyOrder(SpecEncoding(spec).targetSelector, spec.targetSelector)
    ensures |spec.targetSelector| != 0 ==>
      ComputeSelectorHash(spec.targetSelector, sha)
      == EncodeToString(sha(SelectorDoc(SpecEncoding(spec).targetSelector)))
  {
  }

  /** Hashing the spec the call leaves behind gives the same hash and sorts nothing further. */
  lemma SpecHashSideEffectStable(spec: DnsPolicySpec, sha: Sha256)
    ensures ComputeSpecHash(ComputeSpecHash(spec, sha).spec, sha) == ComputeSpecHash(spec, sha)
  {
    SortIdempotent(spec.blockList);
  }
}

=== FILE: hex.dfy ===
/**
  Bytes, 32-byte digests and Go's `hex.EncodeToString`: two lowercase
  hexadecimal digits per byte, high nibble first.
 */
module Hex {

  import opened Wrappers

  type Byte = b: int | 0 <= b < 256

  /** The output of SHA-256: exactly 32 bytes. */
  type Digest = d: seq<Byte> | |d| == 32 witness seq(32, i => 0)

  predicate IsHexDigit(c: char) {
    '0' <= c <= '9' || 'a' <= c <= 'f'
  }

  predicate IsLowerHex(s: string) {
    forall i :: 0 <= i < |s| ==> IsHexDigit(s[i])
  }

  /** The lowercase digit for a nibble `0 <= k < 16`. */
  function Digit(k: int): (c: char)
    requires 0 <= k < 16
    ensures IsHexDigit(c)
  {
    if k < 10 then ('0' as int + k) as char else ('a' as int + k - 10) as char
  }

  function EncodeToString(bs: seq<Byte>): (r: string)
    ensures |r| == 2 * |bs|
    ensures IsLowerHex(r)
  {
    if |bs| == 0 then ""
    else [Digit(bs[0] / 16), Digit(bs[0] % 16)] + EncodeToString(bs[1..])
  }

  /** The nibble a lowercase hex digit stands for; the inverse of `Digit`. */
  function DigitValue(c: char): (r: Option<int>)
    ensures r.Some? <==> IsHexDigit(c)
    ensures r.Some? ==> 0 <= r.value < 16 && Digit(r.value) == c
  {
    if '0' <= c <= '9' then Some(c as int - '0' as int)
    else if 'a' <= c <= 'f' then Some(c as int - 'a' as int + 10)
    else None
  }

  /** The byte two hex digits stand for, high digit first. */
  function DecodePair(c0: char, c1: char): Option<Byte> {
    var hi := DigitValue(c0);
    var lo := DigitValue(c1);
    if hi.Some? && lo.Some? then Some(hi.value * 16 + lo.value) else None
  }

  /** The inverse of `EncodeToString` on lowercase input. */
  function DecodeString(s: string): Option<seq<Byte>>
    decreases |s|
  {
    if |s| == 0 then Some([])
    else if |s| == 1 then None
    else
      var b := DecodePair(s[0], s[1]);
      var rest := DecodeString(s[2..]);
      if b.Some? && rest.Some? then Some([b.value] + rest.value) else None
  }

  lemma DigitValueOfDigit(k: int)
    requires 0 <= k < 16
    ensures DigitValue(Digit(k)) == Some(k)
  {
  }

  lemma SplitByte(b: Byte)
    ensures 0 <= b / 16 < 16 && 0 <= b % 16 < 16
    ensures (b / 16) * 16 + b % 16 == b
  {
  }

  lemma JoinNibbles(hi: int, lo: int)
    requires 0 <= hi < 16 && 0 <= lo < 16
    ensures 0 <= hi * 16 + lo < 256
    ensures (hi * 16 + lo) / 16 == hi && (hi * 16 + lo) % 16 == lo
  {
  }

  /** Decoding undoes encoding, so distinct digests give distinct hex strings. */
  lemma {:induction false} DecodeEncode(bs: seq<Byte>)
    ensures DecodeString(EncodeToString(bs)) == Some(bs)
    decreases |bs|
  {
    if |bs| != 0 {
      var s := EncodeToString(bs);
      DecodeEncode(bs[1..]);
      SplitByte(bs[0]);
      assert s[2..] == EncodeToString(bs[1..]);
      DigitValueOfDigit(bs[0] / 16);
      DigitValueOfDigit(bs[0] % 16);
      assert DecodePair(s[0], s[1]) == Some(bs[0]);
      assert DecodeString(s) == Some([bs[0]] + bs[1..]);
      assert bs == [bs[0]] + bs[1..];
    }
  }

  /** Every even-length lowercase hex string is the encoding of what it decodes to. */
  lemma {:induction false} EncodeDecode(s: string)
    requires IsLowerHex(s) && |s| % 2 == 0
    ensures DecodeString(s).Some?
    ensures EncodeToString(DecodeString(s).value) == s
    decreases |s|
  {
    if |s| != 0 {
      assert IsHexDigit(s[0]) && IsHexDigit(s[1]);
      assert IsLowerHex(s[2..]);
      EncodeDecode(s[2..]);
      var hi := DigitValue(s[0]).value;
      var lo := DigitValue(s[1]).value;
      JoinNibbles(hi, lo);
      var b: Byte := hi * 16 + lo;
      assert DecodePair(s[0], s[1]) == Some(b);
      var rest := DecodeString(s[2..]).value;
      assert DecodeString(s) == Some([b] + rest);
      assert ([b] + rest)[1..] == rest;
      assert EncodeToString([b] + rest) == [Digit(hi), Digit(lo)] + EncodeToString(rest);
      assert s == [s[0], s[1]] + s[2..];
    }
  }

  lemma EncodeInjective(a: seq<Byte>, b: seq<Byte>)
    requires EncodeToString(a) == EncodeToString(b)
    ensures a == b
  {
    DecodeEncode(a);
    DecodeEncode(b);
  }
}

=== FILE: policy_index.dfy ===
/**
  The two-way policy index: a forward map from selector hash to a policy
  snapshot, and a reverse map from a policy's identity to its hash.

  The index is a value. The source guards one mutable instance with a
  reader/writer lock and stores deep copies; with value semantics every
  operation below is one atomic step and nothing is aliased.
 */
module PolicyIndex {

  import opened Wrappers
  import opened Types
  import Strings

  datatype Index = Index(
    hashToPolicy: map<string, DnsPolicy>,
    nameToHash: map<NamespacedName, string>)

  function Empty(): (idx: Index)
    ensures Size(idx) == 0
    ensures Consistent(idx)
  {
    Index(map[], map[])
  }

  /**
    The bijection the two maps are meant to keep: every reverse entry points
    at a forward entry whose policy has that identity, and every forward
    entry's policy identity points back at it.
   */
  ghost predicate Consistent(idx: Index) {
    && (forall id :: id in idx.nameToHash ==>
          idx.nameToHash[id] in idx.hashToPolicy && idx.hashToPolicy[idx.nameToHash[id]].Id() == id)
    && (forall h :: h in idx.hashToPolicy ==>
          idx.hashToPolicy[h].Id() in idx.nameToHash && idx.nameToHash[idx.hashToPolicy[h].Id()] == h)
  }

  /** The identity that owns `h`, if any. */
  function Owner(idx: Index, h: string): Option<NamespacedName> {
    if h in idx.hashToPolicy then Some(idx.hashToPolicy[h].Id()) else None
  }

  /**
    Stores `policy` under `h` and points its identity at `h`, first dropping
    the forward entry of the identity's previous hash when that differs.
    Whoever else owned `h` is not consulted.
   */
  function Upsert(idx: Index, policy: DnsPolicy, h: string): (r: Index)
    ensures Get(r, h) == Some(policy)
    ensures LookupHash(r, policy.Id()) == Some(h)
  {
    var id := policy.Id();
    var forward :=
      if id in idx.nameToHash && idx.nameToHash[id] != h
      then idx.hashToPolicy - {idx.nameToHash[id]}
      else idx.hashToPolicy;
    Index(forward[h := policy], idx.nameToHash[id := h])
  }

  /** Removes `id`'s reverse entry and the forward entry it points at; unknown ids change nothing. */
  function Delete(idx: Index, id: NamespacedName): (r: Index)
    ensures LookupHash(r, id) == None
    ensures id in idx.nameToHash ==> Get(r, idx.nameToHash[id]) == None
  {
    if id in idx.nameToHash then
      Index(idx.hashToPolicy - {idx.nameToHash[id]}, idx.nameToHash - {id})
    else idx
  }

  /** The policy stored under `h`; none when no policy is indexed there. */
  function Get(idx: Index, h: string): Option<DnsPolicy> {
    if h in idx.hashToPolicy then Some(idx.hashToPolicy[h]) else None
  }

  /**
    A lookup finds exactly the stored policies, and under the bijection the
    policy found under `h` is the one whose identity the reverse map sends
    to `h`.
   */
  lemma GetFindsOwner(idx: Index, h: string)
    requires Consistent(idx)
    ensures Get(idx, h).Some? <==> h in idx.hashToPolicy
    ensures Get(idx, h).Some? ==> LookupHash(idx, Get(idx, h).value.Id()) == Some(h)
    ensures forall id :: LookupHash(idx, id) == Some(h) ==> Get(idx, h).Some? && Get(idx, h).value.Id() == id
  {
  }

  /** The reverse lookup: the hash an identity is recorded under. */
  function LookupHash(idx: Index, id: NamespacedName): Option<string> {
    if id in idx.nameToHash then Some(idx.nameToHash[id]) else None
  }

  /** The number of forward entries. */
  function Size(idx: Index): (n: nat)
    ensures n == 0 <==> idx.hashToPolicy == map[]
    ensures n == |idx.hashToPolicy.Keys|
  {
    |idx.hashToPolicy|
  }

  /**
    All stored policies, each forward entry once, in an order the method
    chooses. `hashes` records which entry each element came from.
   */
  method GetAll(idx: Index) returns (policies: seq<DnsPolicy>, ghost hashes: seq<string>)
    ensures |policies| == Size(idx)
    ensures forall p :: p in policies <==> p in idx.hashToPolicy.Values
    ensures |hashes| == |policies|
    ensures Strings.Distinct(hashes)
    ensures forall h :: h in hashes <==> h in idx.hashToPolicy
    ensures forall i :: 0 <= i < |policies| ==>
              hashes[i] in idx.hashToPolicy && policies[i] == idx.hashToPolicy[hashes[i]]
  {
    policies, hashes := [], [];
    var remaining := idx.hashToPolicy.Keys;
    while remaining != {}
      invariant remaining <= idx.hashToPolicy.Keys
      invariant |policies| == |hashes|
      invariant |hashes| + |remaining| == |idx.hashToPolicy|
      invariant Strings.Distinct(hashes)
      invariant forall h :: h in hashes <==> h in idx.hashToPolicy && h !in remaining
      invariant forall i :: 0 <= i < |policies| ==>
                  hashes[i] in idx.hashToPolicy && policies[i] == idx.hashToPolicy[hashes[i]]
      decreases remaining
    {
      var h :| h in remaining;
      policies := policies + [idx.hashToPolicy[h]];
      hashes := hashes + [h];
      remaining := remaining - {h};
    }
    forall p | p in idx.hashToPolicy.Values ensures p in policies {
      var h :| h in idx.hashToPolicy && idx.hashToPolicy[h] == p;
      assert h in hashes;
      var i :| 0 <= i < |hashes| && hashes[i] == h;
      assert policies[i] == p;
    }
  }

  /**
    What `Upsert` changes: the identity's previous hash, when different, is
    dropped; every other forward entry and every other identity's reverse
    entry stay as they were.
   */
  lemma UpsertEffect(idx: Index, policy: DnsPolicy, h: string)
    ensures var r := Upsert(idx, policy, h);
      && (LookupHash(idx, policy.Id()).Some? && LookupHash(idx, policy.Id()).value != h ==>
            Get(r, LookupHash(idx, policy.Id()).value) == None)
      && (forall g :: g != h && LookupHash(idx, policy.Id()) != Some(g) ==> Get(r, g) == Get(idx, g))
      && (forall id :: id != policy.Id() ==> LookupHash(r, id) == LookupHash(idx, id))
  {
  }

  /**
    What `Delete` changes: only the identity's reverse entry and the forward
    entry it names; an unknown identity changes nothing.
   */
  lemma DeleteEffect(idx: Index, id: NamespacedName)
    ensures var r := Delete(idx, id);
      && (forall g :: LookupHash(idx, id) != Some(g) ==> Get(r, g) == Get(idx, g))
      && (forall other :: other != id ==> LookupHash(r, other) == LookupHash(idx, other))
      && (LookupHash(idx, id) == None ==> r == idx)
  {
  }

  /** Upserting the same policy under the same hash twice is the same as once. */
  lemma UpsertIdempotent(idx: Index, policy: DnsPolicy, h: string)
    ensures Upsert(Upsert(idx, policy, h), policy, h) == Upsert(idx, policy, h)
  {
  }

  /** Re-upserting under a new hash moves the entry: the old hash is gone, the new one holds the policy. */
  lemma UpsertMovesEntry(idx: Index, policy: DnsPolicy, h1: string, h2: string)
    requires h1 != h2
    ensures Get(Upsert(Upsert(idx, policy, h1), policy, h2), h1) == None
    ensures Get(Upsert(Upsert(idx, policy, h1), policy, h2), h2) == Some(policy)
    ensures LookupHash(Upsert(Upsert(idx, policy, h1), policy, h2), policy.Id()) == Some(h2)
  {
  }

  /** Deleting keeps the bijection. */
  lemma DeletePreservesConsistency(idx: Index, id: NamespacedName)
    requires Consistent(idx)
    ensures Consistent(Delete(idx, id))
  {
  }

  /**
    Upserting keeps the bijection provided `h` is free or already owned by
    the policy's identity. `Upsert` does not check this itself.
   */
  lemma UpsertPreservesConsistency(idx: Index, policy: DnsPolicy, h: string)
    requires Consistent(idx)
    requires Owner(idx, h) == None || Owner(idx, h) == Some(policy.Id())
    ensures Consistent(Upsert(idx, policy, h))
  {
    var r := Upsert(idx, policy, h);
    var id := policy.Id();
    forall other | other in r.nameToHash
      ensures r.nameToHash[other] in r.hashToPolicy && r.hashToPolicy[r.nameToHash[other]].Id() == other
    {
      if other != id {
        var g := idx.nameToHash[other];
        assert g != h;
        assert id in idx.nameToHash ==> g != idx.nameToHash[id];
      }
    }
  }

  /**
    When `h` belongs to another identity `q`, upserting a policy under `h`
    silently evicts `q`'s snapshot: the bijection breaks, `q`'s reverse
    entry still names `h`, and deleting `q` afterwards removes the new
    policy's entry.
   */
  lemma UpsertOverOtherOwner(idx: Index, policy: DnsPolicy, h: string)
    requires Consistent(idx)
    requires Owner(idx, h).Some? && Owner(idx, h) != Some(policy.Id())
    ensures !Consistent(Upsert(idx, policy, h))
    ensures LookupHash(Upsert(idx, policy, h), Owner(idx, h).value) == Some(h)
    ensures Get(Delete(Upsert(idx, policy, h), Owner(idx, h).value), h) == None
    ensures LookupHash(Delete(Upsert(idx, policy, h), Owner(idx, h).value), policy.Id()) == Some(h)
  {
    var q := Owner(idx, h).value;
    var r := Upsert(idx, policy, h);
    assert r.nameToHash[q] == h && r.hashToPolicy[h].Id() != q;
  }

  /** An injective map has as many distinct values as keys. */
  lemma {:induction false} InjectiveValuesCount<A, B>(m: map<A, B>)
    requires forall a, a' :: a in m && a' in m && a != a' ==> m[a] != m[a']
    ensures |m.Values| == |m.Keys|
    decreases |m.Keys|
  {
    if m.Keys != {} {
      var a :| a in m.Keys;
      var rest := m - {a};
      InjectiveValuesCount(rest);
      assert m.Keys == rest.Keys + {a};
      assert m.Values == rest.Values + {m[a]};
      assert m[a] !in rest.Values;
    }
  }

  /** Under the bijection, the forward and reverse maps have the same number of entries. */
  lemma SizeCountsIdentities(idx: Index)
    requires Consistent(idx)
    ensures Size(idx) == |idx.nameToHash|
  {
    var m := idx.nameToHash;
    InjectiveValuesCount(m);
    assert m.Values == idx.hashToPolicy.Keys by {
      forall h | h in idx.hashToPolicy ensures h in m.Values {
        assert m[idx.hashToPolicy[h].Id()] == h;
      }
    }
    assert |m.Keys| == |m|;
    assert |idx.hashToPolicy.Keys| == |idx.hashToPolicy|;
  }

  /** Deleting an indexed identity drops its entry and shrinks the index by exactly one. */
  lemma DeleteShrinksByOne(idx: Index, id: NamespacedName)
    requires Consistent(idx)
    requires id in idx.nameToHash
    ensures Get(Delete(idx, id), idx.nameToHash[id]) == None
    ensures Size(Delete(idx, id)) == Size(idx) - 1
  {
  }
}

=== FILE: reconciler.dfy ===
/**
  One invocation of the DnsPolicy reconciler as a pure step.

  Inputs: the request's identity, the outcome of fetching the object, the
  outcome of the (at most one) store write the step issues, the index, the
  digest function and the current time. Outputs: the new index, the effects
  in the order they happen (index deletes and upserts, store updates and
  status updates), the in-memory object as the step leaves it (`current`), and Ok or
  the failure returned to the dispatcher.

  The conflict check is a parameter: `NameOnly` is the check as written,
  `WholeIdentity` compares namespace and name (see `ReconcileCorrected`).
 */
module Reconciler {

  import opened Wrappers
  import opened Types
  import opened Fingerprint
  import opened PolicyIndex
  import Conditions
  import Finalizers
  import Hex

  const FinalizerName: string := "dns.dnspolicies.io/finalizer"
  const ReadyType: string := "Ready"
  const InvalidSpecMessage: string := "TargetSelector or Subject cannot be empty"
  const DuplicateHashMessage: string := "DUPLICATE HASH ERROR"
  const ReconciledMessage: string := "DnsPolicy successfully reconciled"

  datatype Fetch = NotFound | FetchFailed | Found(policy: DnsPolicy)

  datatype WriteOutcome = WriteSucceeded | WriteFailed

  datatype Effect =
    | IndexDelete(id: NamespacedName)
    | IndexUpsert(policy: DnsPolicy, hash: string)
    | StoreUpdate(obj: DnsPolicy)
    | StoreStatusUpdate(obj: DnsPolicy)
  {
    predicate IsStoreWrite() {
      StoreUpdate? || StoreStatusUpdate?
    }
  }

  datatype Failure =
    | GetFailed
    | FinalizerRemovalFailed
    | FinalizerAddFailed
    | InvalidSpec
    | DuplicateHash
    | StatusUpdateFailed

  datatype Outcome = Ok | Err(failure: Failure)

  datatype StepResult = StepResult(
    index: Index,
    effects: seq<Effect>,
    current: Option<DnsPolicy>,
    outcome: Outcome)

  datatype ConflictRule = NameOnly | WholeIdentity

  /** `updateCondition`: insert-or-update by type on the in-memory object only. */
  function SetCondition(p: DnsPolicy, condType: string, status: ConditionStatus, reason: string, message: string, now: int): (q: DnsPolicy)
    ensures Conditions.Find(q.status.conditions, condType).Some?
    ensures Conditions.Find(q.status.conditions, condType).value.status == status
    ensures q == p.(status := q.status)
    ensures q.status == p.status.(conditions := q.status.conditions)
  {
    var c := Condition(condType, status, p.generation, now, reason, message);
    Conditions.UpdateEstablishesStatus(p.status.conditions, c);
    p.(status := p.status.(conditions := Conditions.Update(p.status.conditions, c)))
  }

  /** Whether an entry already stored under the policy's selector hash blocks it. */
  predicate Conflicts(rule: ConflictRule, existing: DnsPolicy, policy: DnsPolicy) {
    match rule
    case NameOnly => |existing.name| != 0 && existing.name != policy.name
    case WholeIdentity => existing.Id() != policy.Id()
  }

  /**
    Under either rule an entry never blocks its own identity, and the
    corrected rule refuses everything the rule as written refuses.
   */
  lemma ConflictRulesCompared(existing: DnsPolicy, policy: DnsPolicy)
    ensures forall rule :: Conflicts(rule, existing, policy) ==> existing.Id() != policy.Id()
    ensures Conflicts(NameOnly, existing, policy) ==> Conflicts(WholeIdentity, existing, policy)
  {
  }

  /** The map the selector hash is taken of: the target selector, else the subject. */
  function HashSource(spec: DnsPolicySpec): (m: map<string, string>)
    ensures |spec.targetSelector| != 0 ==> m == spec.targetSelector
    ensures |spec.targetSelector| == 0 ==> m == spec.subject
  {
    if |spec.targetSelector| == 0 then spec.subject else spec.targetSelector
  }

  /** Applies the index effects of a trace in order; store writes leave the index alone. */
  function Replay(idx: Index, effects: seq<Effect>): Index
    decreases |effects|
  {
    if |effects| == 0 then idx
    else
      var next := match effects[0]
        case IndexDelete(id) => Delete(idx, id)
        case IndexUpsert(p, h) => Upsert(idx, p, h)
        case _ => idx;
      Replay(next, effects[1..])
  }

  /** A store write at the end of a trace leaves the replayed index as it was. */
  lemma ReplayThenWrite(idx: Index, e: Effect, w: Effect)
    requires w.IsStoreWrite()
    ensures Replay(idx, [e, w]) == Replay(idx, [e])
  {
    assert [e, w][1..] == [w];
    assert [w][1..] == [];
    assert [e][1..] == [];
  }

  /** The two traces a successful step can leave: an upsert, optionally followed by one store write. */
  lemma UpsertTrace(idx: Index, s: DnsPolicy, h: string)
    requires !s.deletionRequested && FinalizerName in s.finalizers
    ensures Replay(idx, [IndexUpsert(s, h)]) == Upsert(idx, s, h)
    ensures StoreWrites([IndexUpsert(s, h)]) == []
    ensures UpsertsAreGuarded([IndexUpsert(s, h)])
  {
    assert [IndexUpsert(s, h)][1..] == [];
  }

  lemma UpsertThenWriteTrace(idx: Index, s: DnsPolicy, h: string, w: Effect)
    requires !s.deletionRequested && FinalizerName in s.finalizers
    requires w.IsStoreWrite()
    ensures Replay(idx, [IndexUpsert(s, h), w]) == Upsert(idx, s, h)
    ensures StoreWrites([IndexUpsert(s, h), w]) == [w]
    ensures UpsertsAreGuarded([IndexUpsert(s, h), w])
  {
    var effects := [IndexUpsert(s, h), w];
    assert effects[1..] == [w];
    assert effects[1..][1..] == [];
    ReplayThenWrite(idx, effects[0], w);
    UpsertTrace(idx, s, h);
  }

  /** The trace of a release on deletion: the index entry goes, then one store write. */
  lemma DeleteThenWriteTrace(idx: Index, id: NamespacedName, w: Effect)
    requires w.IsStoreWrite()
    ensures Replay(idx, [IndexDelete(id), w]) == Delete(idx, id)
    ensures StoreWrites([IndexDelete(id), w]) == [w]
    ensures UpsertsAreGuarded([IndexDelete(id), w])
  {
    var effects := [IndexDelete(id), w];
    assert effects[1..] == [w];
    assert effects[1..][1..] == [];
    ReplayThenWrite(idx, effects[0], w);
    assert [IndexDelete(id)][1..] == [];
  }

  /** The trace of a lone store write: the index is untouched. */
  lemma WriteOnlyTrace(idx: Index, w: Effect)
    requires w.IsStoreWrite()
    ensures Replay(idx, [w]) == idx
    ensures StoreWrites([w]) == [w]
    ensures UpsertsAreGuarded([w])
  {
    assert [w][1..] == [];
  }

  function StoreWrites(effects: seq<Effect>): (w: seq<Effect>)
    ensures |w| <= |effects|
    ensures forall e :: e in w <==> e in effects && e.IsStoreWrite()
  {
    if |effects| == 0 then []
    else if effects[0].IsStoreWrite() then [effects[0]] + StoreWrites(effects[1..])
    else StoreWrites(effects[1..])
  }

  /** Every policy the trace puts into the index is live and carries the finalizer. */
  predicate UpsertsAreGuarded(effects: seq<Effect>) {
    forall e :: e in effects && e.IndexUpsert? ==>
      !e.policy.deletionRequested && FinalizerName in e.policy.finalizers
  }

  /** The outcome of the one store write a step may issue. */
  function AfterWrite(write: WriteOutcome, failure: Failure): Outcome {
    if write.WriteSucceeded? then Ok else Err(failure)
  }

  function Step(rule: ConflictRule, req: NamespacedName, fetch: Fetch, write: WriteOutcome,
                idx: Index, sha: Sha256, now: int): (r: StepResult)
    ensures r.index == Replay(idx, r.effects)
    ensures UpsertsAreGuarded(r.effects)
    ensures |StoreWrites(r.effects)| <= 1
    ensures |StoreWrites(r.effects)| == 0 ==> r.outcome != Err(FinalizerRemovalFailed) && r.outcome != Err(FinalizerAddFailed) && r.outcome != Err(StatusUpdateFailed)
    ensures r.outcome.Err? && |StoreWrites(r.effects)| != 0 ==> write == WriteFailed
  {
    match fetch
    case NotFound =>
      StepResult(Delete(idx, req), [IndexDelete(req)], None, Ok)
    case FetchFailed =>
      StepResult(idx, [], None, Err(GetFailed))
    case Found(p) =>
      if p.deletionRequested then
        if Finalizers.ContainsFinalizer(p.finalizers, FinalizerName) then
          var released := p.(finalizers := Finalizers.RemoveFinalizer(p.finalizers, FinalizerName));
          DeleteThenWriteTrace(idx, req, StoreUpdate(released));
          StepResult(Delete(idx, req), [IndexDelete(req), StoreUpdate(released)], Some(released),
                     AfterWrite(write, FinalizerRemovalFailed))
        else
          StepResult(idx, [], Some(p), Ok)
      else if !Finalizers.ContainsFinalizer(p.finalizers, FinalizerName) then
        var marked := p.(finalizers := Finalizers.AddFinalizer(p.finalizers, FinalizerName));
        WriteOnlyTrace(idx, StoreUpdate(marked));
        StepResult(idx, [StoreUpdate(marked)], Some(marked), AfterWrite(write, FinalizerAddFailed))
      else if |p.spec.targetSelector| == 0 && |p.spec.subject| == 0 then
        var failed := SetCondition(p, ReadyType, ConditionFalse, "InvalidSpec", InvalidSpecMessage, now);
        StepResult(idx, [], Some(failed), Err(InvalidSpec))
      else
        var selectorHash := SelectorHashOf(p, sha);
        var existing := Get(idx, selectorHash);
        if existing.Some? && Conflicts(rule, existing.value, p) then
          var failed := SetCondition(p, ReadyType, ConditionFalse, "HashComputationFailed", DuplicateHashMessage, now);
          StepResult(idx, [], Some(failed), Err(DuplicateHash))
        else
          Commit(p, write, idx, sha, now)
  }

  /**
    The tail of a successful step: record the hashes and generation in the
    status, index the object, then write the status if anything changed.
   */
  function Commit(p: DnsPolicy, write: WriteOutcome, idx: Index, sha: Sha256, now: int): (r: StepResult)
    requires !p.deletionRequested && FinalizerName in p.finalizers
    ensures r.index == Replay(idx, r.effects)
    ensures UpsertsAreGuarded(r.effects)
    ensures |StoreWrites(r.effects)| <= 1
    ensures |StoreWrites(r.effects)| == 0 ==> r.outcome == Ok
    ensures r.outcome.Err? ==> r.outcome == Err(StatusUpdateFailed) && write == WriteFailed
    ensures r.index == Upsert(idx, Snapshot(p, sha), SelectorHashOf(p, sha))
    ensures forall e :: e in StoreWrites(r.effects) ==> e.StoreStatusUpdate?
  {
    var snapshot := Snapshot(p, sha);
    assert !snapshot.deletionRequested && FinalizerName in snapshot.finalizers;
    IndexThenWriteStatus(snapshot, SelectorHashOf(p, sha), StatusChanged(p, sha), write, idx, now)
  }

  /**
    Upserts the snapshot under the hash, then, when the recorded status
    changed, writes it back with Ready=True.
   */
  function IndexThenWriteStatus(snapshot: DnsPolicy, selectorHash: string, changed: bool, write: WriteOutcome,
                                idx: Index, now: int): (r: StepResult)
    requires !snapshot.deletionRequested && FinalizerName in snapshot.finalizers
    ensures r.index == Replay(idx, r.effects)
    ensures UpsertsAreGuarded(r.effects)
    ensures |StoreWrites(r.effects)| <= 1
    ensures |StoreWrites(r.effects)| == 0 ==> r.outcome == Ok
    ensures r.outcome.Err? ==> r.outcome == Err(StatusUpdateFailed) && write == WriteFailed
    ensures r.index == Upsert(idx, snapshot, selectorHash)
    ensures changed ==> r.effects == [IndexUpsert(snapshot, selectorHash),
              StoreStatusUpdate(SetCondition(snapshot, ReadyType, ConditionTrue, "Reconciled", ReconciledMessage, now))]
    ensures changed ==> r.outcome == AfterWrite(write, StatusUpdateFailed)
    ensures !changed ==> r.effects == [IndexUpsert(snapshot, selectorHash)] && r.outcome == Ok
  {
    var indexed := Upsert(idx, snapshot, selectorHash);
    if changed then
      var ready := SetCondition(snapshot, ReadyType, ConditionTrue, "Reconciled", ReconciledMessage, now);
      UpsertThenWriteTrace(idx, snapshot, selectorHash, StoreStatusUpdate(ready));
      StepResult(indexed, [IndexUpsert(snapshot, selectorHash), StoreStatusUpdate(ready)], Some(ready),
                 AfterWrite(write, StatusUpdateFailed))
    else
      UpsertTrace(idx, snapshot, selectorHash);
      StepResult(indexed, [IndexUpsert(snapshot, selectorHash)], Some(snapshot), Ok)
  }

  /** The reconciler as written: the conflict check compares names only. */
  function Reconcile(req: NamespacedName, fetch: Fetch, write: WriteOutcome,
                     idx: Index, sha: Sha256, now: int): (r: StepResult)
    ensures r.index == Replay(idx, r.effects)
    ensures UpsertsAreGuarded(r.effects)
    ensures |StoreWrites(r.effects)| <= 1
    ensures |StoreWrites(r.effects)| == 0 ==> r.outcome != Err(FinalizerRemovalFailed) && r.outcome != Err(FinalizerAddFailed) && r.outcome != Err(StatusUpdateFailed)
    ensures r.outcome.Err? && |StoreWrites(r.effects)| != 0 ==> write == WriteFailed
  {
    Step(NameOnly, req, fetch, write, idx, sha, now)
  }

  /** The reconciler with the conflict check comparing the whole identity. */
  function ReconcileCorrected(req: NamespacedName, fetch: Fetch, write: WriteOutcome,
                              idx: Index, sha: Sha256, now: int): (r: StepResult)
    ensures r.index == Replay(idx, r.effects)
    ensures UpsertsAreGuarded(r.effects)
    ensures |StoreWrites(r.effects)| <= 1
    ensures |StoreWrites(r.effects)| == 0 ==> r.outcome != Err(FinalizerRemovalFailed) && r.outcome != Err(FinalizerAddFailed) && r.outcome != Err(StatusUpdateFailed)
    ensures r.outcome.Err? && |StoreWrites(r.effects)| != 0 ==> write == WriteFailed
  {
    Step(WholeIdentity, req, fetch, write, idx, sha, now)
  }

  /** A vanished object is dropped from the index; nothing is written and the step succeeds. */
  lemma NotFoundDeletes(rule: ConflictRule, req: NamespacedName, write: WriteOutcome, idx: Index, sha: Sha256, now: int)
    ensures Step(rule, req, NotFound, write, idx, sha, now).outcome == Ok
    ensures Step(rule, req, NotFound, write, idx, sha, now).index == Delete(idx, req)
    ensures LookupHash(Step(rule, req, NotFound, write, idx, sha, now).index, req) == None
    ensures StoreWrites(Step(rule, req, NotFound, write, idx, sha, now).effects) == []
  {
  }

  /** Any other fetch error is returned and the index is left as it was. */
  lemma FetchErrorLeavesIndex(rule: ConflictRule, req: NamespacedName, write: WriteOutcome, idx: Index, sha: Sha256, now: int)
    ensures Step(rule, req, FetchFailed, write, idx, sha, now).outcome == Err(GetFailed)
    ensures Step(rule, req, FetchFailed, write, idx, sha, now).index == idx
    ensures Step(rule, req, FetchFailed, write, idx, sha, now).effects == []
  {
  }

  /**
    Deletion with the finalizer present: the index entry goes first, then
    one Update that clears the finalizer. If that Update fails the step
    fails, but the entry is already gone.
   */
  lemma DeletionCleansUpBeforeRelease(rule: ConflictRule, req: NamespacedName, p: DnsPolicy, write: WriteOutcome,
                                      idx: Index, sha: Sha256, now: int)
    requires p.deletionRequested && FinalizerName in p.finalizers
    ensures var r := Step(rule, req, Found(p), write, idx, sha, now);
      && |r.effects| == 2
      && r.effects[0] == IndexDelete(req)
      && r.effects[1].StoreUpdate?
      && FinalizerName !in r.effects[1].obj.finalizers
      && multiset(r.effects[1].obj.finalizers) == multiset(p.finalizers)[FinalizerName := 0]
      && Finalizers.IsSubsequence(r.effects[1].obj.finalizers, p.finalizers)
      && r.effects[1].obj == p.(finalizers := r.effects[1].obj.finalizers)
      && LookupHash(r.index, req) == None
      && (r.outcome == Ok <==> write == WriteSucceeded)
      && (r.outcome.Err? ==> r.outcome.failure == FinalizerRemovalFailed)
  {
  }

  /** Deletion without the finalizer: nothing to do. */
  lemma DeletionWithoutFinalizerIsNoop(rule: ConflictRule, req: NamespacedName, p: DnsPolicy, write: WriteOutcome,
                                       idx: Index, sha: Sha256, now: int)
    requires p.deletionRequested && FinalizerName !in p.finalizers
    ensures Step(rule, req, Found(p), write, idx, sha, now) == StepResult(idx, [], Some(p), Ok)
  {
  }

  /**
    A live object without the finalizer gets it, through exactly one Update,
    and is not indexed in the same step.
   */
  lemma FinalizerAddedBeforeIndexing(rule: ConflictRule, req: NamespacedName, p: DnsPolicy, write: WriteOutcome,
                                     idx: Index, sha: Sha256, now: int)
    requires !p.deletionRequested && FinalizerName !in p.finalizers
    ensures var r := Step(rule, req, Found(p), write, idx, sha, now);
      && r.index == idx
      && |r.effects| == 1 && r.effects[0].StoreUpdate?
      && r.effects[0].obj == p.(finalizers := p.finalizers + [FinalizerName])
      && (r.outcome == Ok <==> write == WriteSucceeded)
  {
  }

  /**
    Neither a target selector nor a subject: the step fails with the index
    unchanged. Ready=False/InvalidSpec is set on the in-memory object, but no
    write carries it to the store.
   */
  lemma InvalidSpecNotPersisted(rule: ConflictRule, req: NamespacedName, p: DnsPolicy, write: WriteOutcome,
                                idx: Index, sha: Sha256, now: int)
    requires !p.deletionRequested && FinalizerName in p.finalizers
    requires |p.spec.targetSelector| == 0 && |p.spec.subject| == 0
    ensures var r := Step(rule, req, Found(p), write, idx, sha, now);
      && r.outcome == Err(InvalidSpec)
      && r.index == idx
      && r.effects == []
      && r.current.Some?
      && Conditions.Find(r.current.value.status.conditions, ReadyType).Some?
      && Conditions.Find(r.current.value.status.conditions, ReadyType).value.status == ConditionFalse
  {
  }

  /** The hash a valid, live, finalized policy is looked up and indexed under. */
  function SelectorHashOf(p: DnsPolicy, sha: Sha256): string {
    ComputeSelectorHash(HashSource(p.spec), sha)
  }

  /** The shared preconditions of the steps that reach the hash computation. */
  predicate ReachesHashing(p: DnsPolicy) {
    && !p.deletionRequested
    && FinalizerName in p.finalizers
    && (|p.spec.targetSelector| != 0 || |p.spec.subject| != 0)
  }

  /**
    The selector hash comes from the target selector when it is non-empty,
    otherwise from the subject; either way it is a 64-digit lowercase hex
    string.
   */
  lemma SelectorHashSource(p: DnsPolicy, sha: Sha256)
    requires ReachesHashing(p)
    ensures |p.spec.targetSelector| != 0 ==> SelectorHashOf(p, sha) == ComputeSelectorHash(p.spec.targetSelector, sha)
    ensures |p.spec.targetSelector| == 0 ==> SelectorHashOf(p, sha) == ComputeSelectorHash(p.spec.subject, sha)
    ensures |SelectorHashOf(p, sha)| == 64 && Hex.IsLowerHex(SelectorHashOf(p, sha))
  {
  }

  /** A conflicting entry under the hash fails the step and leaves the index alone. */
  lemma ConflictLeavesIndex(rule: ConflictRule, req: NamespacedName, p: DnsPolicy, write: WriteOutcome,
                            idx: Index, sha: Sha256, now: int)
    requires ReachesHashing(p)
    requires Get(idx, SelectorHashOf(p, sha)).Some?
    requires Conflicts(rule, Get(idx, SelectorHashOf(p, sha)).value, p)
    ensures var r := Step(rule, req, Found(p), write, idx, sha, now);
      r.outcome == Err(DuplicateHash) && r.index == idx && r.effects == []
  {
  }

  /** The check as written ignores namespaces: the same name elsewhere is no conflict. */
  lemma NameOnlyIgnoresNamespace(existing: DnsPolicy, p: DnsPolicy)
    requires existing.name == p.name
    ensures !Conflicts(NameOnly, existing, p)
    ensures existing.namespace != p.namespace ==> Conflicts(WholeIdentity, existing, p)
  {
  }

  /** The snapshot a successful step indexes. */
  function Snapshot(p: DnsPolicy, sha: Sha256): DnsPolicy {
    var specResult := ComputeSpecHash(p.spec, sha);
    p.(spec := specResult.spec,
       status := p.status.(selectorHash := SelectorHashOf(p, sha), specHash := specResult.hash,
                           observedGeneration := p.generation))
  }

  /** The snapshot records the computed hashes and the generation. */
  lemma SnapshotRecordsHashes(p: DnsPolicy, sha: Sha256)
    ensures Snapshot(p, sha).status.selectorHash == SelectorHashOf(p, sha)
    ensures Snapshot(p, sha).status.specHash == ComputeSpecHash(p.spec, sha).hash
    ensures Snapshot(p, sha).status.observedGeneration == p.generation
    ensures Snapshot(p, sha).Id() == p.Id()
  {
  }

  /** Whether a successful step must write the status back. */
  predicate StatusChanged(p: DnsPolicy, sha: Sha256) {
    || p.status.selectorHash != SelectorHashOf(p, sha)
    || p.status.specHash != ComputeSpecHash(p.spec, sha).hash
    || p.status.observedGeneration != p.generation
  }

  /** A policy that reaches hashing without a conflict is committed. */
  lemma StepAdmits(rule: ConflictRule, req: NamespacedName, p: DnsPolicy, write: WriteOutcome,
                   idx: Index, sha: Sha256, now: int)
    requires ReachesHashing(p)
    requires Get(idx, SelectorHashOf(p, sha)).None? || !Conflicts(rule, Get(idx, SelectorHashOf(p, sha)).value, p)
    ensures Step(rule, req, Found(p), write, idx, sha, now)
         == IndexThenWriteStatus(Snapshot(p, sha), SelectorHashOf(p, sha), StatusChanged(p, sha), write, idx, now)
  {
    assert Step(rule, req, Found(p), write, idx, sha, now) == Commit(p, write, idx, sha, now);
  }

  /**
    Commit: the snapshot is upserted under the selector hash as the first
    effect, before any status write, and stays indexed whatever that write's
    outcome.
   */
  lemma CommitIndexesFirst(rule: ConflictRule, req: NamespacedName, p: DnsPolicy, write: WriteOutcome,
                           idx: Index, sha: Sha256, now: int)
    requires ReachesHashing(p)
    requires Get(idx, SelectorHashOf(p, sha)).None? || !Conflicts(rule, Get(idx, SelectorHashOf(p, sha)).value, p)
    ensures var r := Step(rule, req, Found(p), write, idx, sha, now);
      && r.index == Upsert(idx, Snapshot(p, sha), SelectorHashOf(p, sha))
      && Get(r.index, SelectorHashOf(p, sha)) == Some(Snapshot(p, sha))
      && |r.effects| >= 1
      && r.effects[0] == IndexUpsert(Snapshot(p, sha), SelectorHashOf(p, sha))
  {
    StepAdmits(rule, req, p, write, idx, sha, now);
    SnapshotRecordsHashes(p, sha);
  }

  /**
    A status write is issued exactly when one of the three recorded fields
    changed, it follows the upsert and records Ready=True, and only its
    failure fails the step.
   */
  lemma CommitWritesStatusIffChanged(rule: ConflictRule, req: NamespacedName, p: DnsPolicy, write: WriteOutcome,
                                     idx: Index, sha: Sha256, now: int)
    requires ReachesHashing(p)
    requires Get(idx, SelectorHashOf(p, sha)).None? || !Conflicts(rule, Get(idx, SelectorHashOf(p, sha)).value, p)
    ensures var r := Step(rule, req, Found(p), write, idx, sha, now);
      && (|StoreWrites(r.effects)| == 1 <==> StatusChanged(p, sha))
      && (StatusChanged(p, sha) ==>
            && |r.effects| == 2
            && r.effects[1].StoreStatusUpdate?
            && r.effects[1].obj == SetCondition(Snapshot(p, sha), ReadyType, ConditionTrue, "Reconciled", ReconciledMessage, now)
            && r.effects[1].obj.spec.blockList == ComputeSpecHash(p.spec, sha).spec.blockList
            && r.effects[1].obj.status.selectorHash == SelectorHashOf(p, sha)
            && r.effects[1].obj.status.specHash == ComputeSpecHash(p.spec, sha).hash
            && r.effects[1].obj.status.observedGeneration == p.generation
            && Conditions.Find(r.effects[1].obj.status.conditions, ReadyType).Some?
            && Conditions.Find(r.effects[1].obj.status.conditions, ReadyType).value.status == ConditionTrue)
      && (r.outcome == Ok <==> !StatusChanged(p, sha) || write == WriteSucceeded)
  {
    StepAdmits(rule, req, p, write, idx, sha, now);
    SnapshotRecordsHashes(p, sha);
    var s := Snapshot(p, sha);
    var h := SelectorHashOf(p, sha);
    if StatusChanged(p, sha) {
      var ready := SetCondition(s, ReadyType, ConditionTrue, "Reconciled", ReconciledMessage, now);
      UpsertThenWriteTrace(idx, s, h, StoreStatusUpdate(ready));
      assert ready.status.specHash == s.status.specHash;
    } else {
      UpsertTrace(idx, s, h);
    }
  }

  /** With the whole identity compared, a step keeps the index's bijection. */
  lemma CorrectedStepPreservesConsistency(req: NamespacedName, fetch: Fetch, write: WriteOutcome,
                                          idx: Index, sha: Sha256, now: int)
    requires Consistent(idx)
    requires fetch.Found? ==> fetch.policy.Id() == req
    ensures Consistent(ReconcileCorrected(req, fetch, write, idx, sha, now).index)
  {
    match fetch
    case NotFound =>
      DeletePreservesConsistency(idx, req);
    case FetchFailed =>
    case Found(p) =>
      if p.deletionRequested {
        DeletePreservesConsistency(idx, req);
      } else if ReachesHashing(p) {
        var h := SelectorHashOf(p, sha);
        if Get(idx, h).None? || !Conflicts(WholeIdentity, Get(idx, h).value, p) {
          UpsertPreservesConsistency(idx, Snapshot(p, sha), h);
        }
      }
  }

  /**
    As written, a policy whose name matches an indexed policy of another
    namespace under the same selector hash is admitted: the step breaks the
    bijection, and deleting the first policy later removes the second's entry.
   */
  lemma CrossNamespaceCollisionBreaksIndex(p: DnsPolicy, write: WriteOutcome, idx: Index, sha: Sha256, now: int)
    requires Consistent(idx)
    requires ReachesHashing(p)
    requires Owner(idx, SelectorHashOf(p, sha)).Some?
    requires Owner(idx, SelectorHashOf(p, sha)).value.name == p.name
    requires Owner(idx, SelectorHashOf(p, sha)).value.namespace != p.namespace
    ensures var r := Reconcile(p.Id(), Found(p), write, idx, sha, now);
      var other := Owner(idx, SelectorHashOf(p, sha)).value;
      && !Consistent(r.index)
      && Get(Delete(r.index, other), SelectorHashOf(p, sha)) == None
      && LookupHash(Delete(r.index, other), p.Id()) == Some(SelectorHashOf(p, sha))
  {
    var h := SelectorHashOf(p, sha);
    SnapshotRecordsHashes(p, sha);
    assert !Conflicts(NameOnly, Get(idx, h).value, p);
    StepAdmits(NameOnly, p.Id(), p, write, idx, sha, now);
    UpsertOverOtherOwner(idx, Snapshot(p, sha), h);
  }
}

=== FILE: strings.dfy ===
/**
  The order Go's `sort.Strings` uses, and the two sorts the fingerprinting
  relies on: sorting a slice of strings, and listing the keys of a map in
  ascending order.

  Go compares strings byte by byte over their UTF-8 encoding. For Unicode
  scalar values that order coincides with comparing code points one by one,
  which is what `LessEq` does on Dafny's `char`.
 */
module Strings {

  /** Lexicographic `a <= b`. */
  predicate LessEq(a: string, b: string)
    decreases |a|
  {
    |a| == 0 || (|b| != 0 && (a[0] < b[0] || (a[0] == b[0] && LessEq(a[1..], b[1..]))))
  }

  lemma {:induction false} LessEqReflexive(a: string)
    ensures LessEq(a, a)
    decreases |a|
  {
    if |a| != 0 {
      LessEqReflexive(a[1..]);
    }
  }

  lemma {:induction false} LessEqAntisymmetric(a: string, b: string)
    requires LessEq(a, b) && LessEq(b, a)
    ensures a == b
    decreases |a|
  {
    if |a| != 0 {
      LessEqAntisymmetric(a[1..], b[1..]);
      assert a == [a[0]] + a[1..];
      assert b == [b[0]] + b[1..];
    }
  }

  lemma {:induction false} LessEqTransitive(a: string, b: string, c: string)
    requires LessEq(a, b) && LessEq(b, c)
    ensures LessEq(a, c)
    decreases |a|
  {
    if |a| != 0 && a[0] == b[0] && b[0] == c[0] {
      LessEqTransitive(a[1..], b[1..], c[1..]);
    }
  }

  lemma {:induction false} LessEqTotal(a: string, b: string)
    ensures LessEq(a, b) || LessEq(b, a)
    decreases |a|
  {
    if |a| != 0 && |b| != 0 && a[0] == b[0] {
      LessEqTotal(a[1..], b[1..]);
    }
  }

  /** The order facts above, for all strings at once. */
  lemma LessEqIsTotalOrder()
    ensures forall a: string :: LessEq(a, a)
    ensures forall a: string, b: string :: LessEq(a, b) && LessEq(b, a) ==> a == b
    ensures forall a: string, b: string, c: string :: LessEq(a, b) && LessEq(b, c) ==> LessEq(a, c)
    ensures forall a: string, b: string :: LessEq(a, b) || LessEq(b, a)
  {
    forall a: string {
      LessEqReflexive(a);
    }
    forall a: string, b: string | LessEq(a, b) && LessEq(b, a) {
      LessEqAntisymmetric(a, b);
    }
    forall a: string, b: string, c: string | LessEq(a, b) && LessEq(b, c) {
      LessEqTransitive(a, b, c);
    }
    forall a: string, b: string {
      LessEqTotal(a, b);
    }
  }

  predicate Sorted(s: seq<string>) {
    forall i, j :: 0 <= i < j < |s| ==> LessEq(s[i], s[j])
  }

  /** Sorted with no repeated element: the shape of a listing of map keys. */
  predicate StrictlySorted(s: seq<string>) {
    forall i, j :: 0 <= i < j < |s| ==> LessEq(s[i], s[j]) && s[i] != s[j]
  }

  predicate Distinct<T(==)>(s: seq<T>) {
    forall i, j :: 0 <= i < j < |s| ==> s[i] != s[j]
  }

  /** The first element of a sorted sequence is below all of its elements. */
  lemma SortedHeadLeast(s: seq<string>, x: string)
    requires Sorted(s) && x in s
    ensures LessEq(s[0], x)
  {
    var j :| 0 <= j < |s| && s[j] == x;
    if j == 0 {
      LessEqReflexive(x);
    }
  }

  /** Inserts `x` into the sorted `s` after the elements strictly below it. */
  function Insert(x: string, s: seq<string>): (r: seq<string>)
    requires Sorted(s)
    ensures Sorted(r)
    ensures multiset(r) == multiset(s) + multiset{x}
  {
    if |s| == 0 then [x]
    else if LessEq(x, s[0]) then
      assert forall y :: y in s ==> LessEq(x, y) by {
        forall y | y in s ensures LessEq(x, y) {
          SortedHeadLeast(s, y);
          LessEqTransitive(x, s[0], y);
        }
      }
      [x] + s
    else
      var rest := Insert(x, s[1..]);
      assert s == [s[0]] + s[1..];
      assert forall y :: y in rest ==> LessEq(s[0], y) by {
        forall y | y in rest ensures LessEq(s[0], y) {
          assert y in multiset(rest);
          if y == x {
            LessEqTotal(x, s[0]);
          } else {
            assert y in s[1..];
          }
        }
      }
      [s[0]] + rest
  }

  /** The sort `sort.Strings` performs: the result is ordered and is a permutation of `s`. */
  function Sort(s: seq<string>): (r: seq<string>)
    ensures Sorted(r)
    ensures multiset(r) == multiset(s)
    ensures |r| == |s|
    ensures forall x :: x in r <==> x in s
  {
    if |s| == 0 then []
    else
      assert s == [s[0]] + s[1..];
      var r := Insert(s[0], Sort(s[1..]));
      assert forall x :: x in r <==> x in multiset(r);
      assert forall x :: x in s <==> x in multiset(s);
      r
  }

  /** A sorted sequence is determined by its multiset of elements. */
  lemma {:induction false} SortedUnique(a: seq<string>, b: seq<string>)
    requires Sorted(a) && Sorted(b)
    requires multiset(a) == multiset(b)
    ensures a == b
    decreases |a|
  {
    assert |a| == |multiset(a)| == |multiset(b)| == |b|;
    if |a| != 0 {
      assert a[0] in multiset(b);
      assert b[0] in multiset(a);
      SortedHeadLeast(b, a[0]);
      SortedHeadLeast(a, b[0]);
      LessEqAntisymmetric(a[0], b[0]);
      assert a == [a[0]] + a[1..];
      assert b == [b[0]] + b[1..];
      assert multiset(a[1..]) == multiset(a) - multiset{a[0]};
      assert multiset(b[1..]) == multiset(b) - multiset{b[0]};
      assert multiset(a[1..]) == multiset(b[1..]);
      SortedUnique(a[1..], b[1..]);
    }
  }

  /** Sorting forgets the original order: any two permutations sort alike. */
  lemma SortPermutationInvariant(a: seq<string>, b: seq<string>)
    requires multiset(a) == multiset(b)
    ensures Sort(a) == Sort(b)
  {
    SortedUnique(Sort(a), Sort(b));
  }

  /** Sorting a sorted sequence changes nothing. */
  lemma SortIdempotent(s: seq<string>)
    ensures Sort(Sort(s)) == Sort(s)
  {
    SortedUnique(Sort(Sort(s)), Sort(s));
  }

  predicate IsLeast(k: string, keys: set<string>) {
    forall x :: x in keys ==> LessEq(k, x)
  }

  lemma {:induction false} LeastExists(keys: set<string>)
    requires keys != {}
    ensures exists k :: k in keys && IsLeast(k, keys)
    decreases |keys|
  {
    LessEqIsTotalOrder();
    var x :| x in keys;
    if keys - {x} != {} {
      LeastExists(keys - {x});
      var m :| m in keys - {x} && IsLeast(m, keys - {x});
      if LessEq(x, m) {
        assert IsLeast(x, keys);
      } else {
        assert IsLeast(m, keys);
      }
    } else {
      assert keys == {x};
      assert IsLeast(x, keys);
    }
  }

  /** The keys of a map in ascending order, each once. */
  function SortedKeys(keys: set<string>): (r: seq<string>)
    ensures StrictlySorted(r)
    ensures |r| == |keys|
    ensures forall k :: k in r <==> k in keys
    decreases |keys|
  {
    if keys == {} then []
    else
      LessEqIsTotalOrder();
      LeastExists(keys);
      var k :| k in keys && IsLeast(k, keys);
      var rest := SortedKeys(keys - {k});
      assert forall y :: y in rest ==> LessEq(k, y) && y != k;
      [k] + rest
  }

  lemma {:induction false} DistinctCount<T>(s: seq<T>, x: T)
    requires Distinct(s)
    ensures multiset(s)[x] == if x in s then 1 else 0
    decreases |s|
  {
    if |s| != 0 {
      assert s == [s[0]] + s[1..];
      assert Distinct(s[1..]);
      DistinctCount(s[1..], x);
    }
  }

  /** Two duplicate-free listings of the same elements are permutations of each other. */
  lemma DistinctSameElements<T>(a: seq<T>, b: seq<T>)
    requires Distinct(a) && Distinct(b)
    requires forall x :: x in a <==> x in b
    ensures multiset(a) == multiset(b)
  {
    forall x ensures multiset(a)[x] == multiset(b)[x] {
      DistinctCount(a, x);
      DistinctCount(b, x);
    }
  }

  /**
    Go collects a map's keys by ranging over it, in an order the runtime
    chooses, then sorts them. Whatever that order, the result is `SortedKeys`.
   */
  lemma CollectThenSortIsSortedKeys(rangeOrder: seq<string>, keys: set<string>)
    requires Distinct(rangeOrder)
    requires forall k :: k in rangeOrder <==> k in keys
    ensures Sort(rangeOrder) == SortedKeys(keys)
  {
    var ks := SortedKeys(keys);
    assert Distinct(ks);
    DistinctSameElements(rangeOrder, ks);
    SortedUnique(Sort(rangeOrder), ks);
  }
}

=== FILE: system.dfy ===
/**
  The controller and the read service together: a sequence of reconcile invocations building the
  index, and what the read service then answers.
 */
module System {

  import opened Wrappers
  import opened Types
  import opened Fingerprint
  import opened PolicyIndex
  import opened Reconciler
  import opened ApiServer
  import Hex

  /** One reconcile invocation as the dispatcher delivers it. */
  datatype Event = Event(req: NamespacedName, fetch: Fetch, write: WriteOutcome, now: int)

  /** The store returns the object the request names. */
  predicate FetchMatches(e: Event) {
    e.fetch.Found? ==> e.fetch.policy.Id() == e.req
  }

  /** The index after the events, one whole step each, in order and never interleaved. */
  function Run(rule: ConflictRule, idx: Index, events: seq<Event>, sha: Sha256): Index
    decreases |events|
  {
    if |events| == 0 then idx
    else
      var e := events[0];
      Run(rule, Step(rule, e.req, e.fetch, e.write, idx, sha, e.now).index, events[1..], sha)
  }

  /**
    Every indexed snapshot sits under a 64-digit lowercase hex hash equal to
    the selector hash in its own status, and is a live object carrying the
    finalizer.
   */
  ghost predicate WellKeyed(idx: Index) {
    forall h :: h in idx.hashToPolicy ==>
      && |h| == 64 && Hex.IsLowerHex(h)
      && idx.hashToPolicy[h].status.selectorHash == h
      && !idx.hashToPolicy[h].deletionRequested
      && FinalizerName in idx.hashToPolicy[h].finalizers
  }

  lemma DeleteKeepsWellKeyed(idx: Index, id: NamespacedName)
    requires WellKeyed(idx)
    ensures WellKeyed(Delete(idx, id))
  {
  }

  /** Upserting a snapshot that records its own key as selector hash keeps the index well keyed. */
  lemma UpsertKeepsWellKeyed(idx: Index, s: DnsPolicy, h: string)
    requires WellKeyed(idx)
    requires |h| == 64 && Hex.IsLowerHex(h) && s.status.selectorHash == h
    requires !s.deletionRequested && FinalizerName in s.finalizers
    ensures WellKeyed(Upsert(idx, s, h))
  {
    var r := Upsert(idx, s, h);
    UpsertEffect(idx, s, h);
    forall g | g in r.hashToPolicy && g != h
      ensures g in idx.hashToPolicy && r.hashToPolicy[g] == idx.hashToPolicy[g]
    {
      assert Get(r, g) == Get(idx, g);
    }
  }

  /** One reconcile step of either rule keeps the index well keyed. */
  lemma StepKeepsWellKeyed(rule: ConflictRule, req: NamespacedName, fetch: Fetch, write: WriteOutcome,
                           idx: Index, sha: Sha256, now: int)
    requires WellKeyed(idx)
    ensures WellKeyed(Step(rule, req, fetch, write, idx, sha, now).index)
  {
    var r := Step(rule, req, fetch, write, idx, sha, now);
    if fetch.NotFound? || (fetch.Found? && fetch.policy.deletionRequested && FinalizerName in fetch.policy.finalizers) {
      assert r.index == Delete(idx, req);
      DeleteKeepsWellKeyed(idx, req);
    } else if fetch.Found? && ReachesHashing(fetch.policy) {
      var p := fetch.policy;
      var h := SelectorHashOf(p, sha);
      if Get(idx, h).None? || !Conflicts(rule, Get(idx, h).value, p) {
        CommitIndexesFirst(rule, req, p, write, idx, sha, now);
        SelectorHashSource(p, sha);
        SnapshotRecordsHashes(p, sha);
        UpsertKeepsWellKeyed(idx, Snapshot(p, sha), h);
      } else {
        ConflictLeavesIndex(rule, req, p, write, idx, sha, now);
      }
    } else {
      assert r.index == idx;
    }
  }

  /** Whatever the conflict rule, a run from any well-keyed index leaves it well keyed. */
  lemma {:induction false} RunKeepsWellKeyed(rule: ConflictRule, idx: Index, events: seq<Event>, sha: Sha256)
    requires WellKeyed(idx)
    ensures WellKeyed(Run(rule, idx, events, sha))
    decreases |events|
  {
    if |events| != 0 {
      var e := events[0];
      StepKeepsWellKeyed(rule, e.req, e.fetch, e.write, idx, sha, e.now);
      RunKeepsWellKeyed(rule, Step(rule, e.req, e.fetch, e.write, idx, sha, e.now).index, events[1..], sha);
    }
  }

  /**
    With the corrected conflict check, no sequence of invocations breaks the
    bijection. The invocations run one after another, as with a single
    worker; interleaved invocations are not modelled.
   */
  lemma {:induction false} CorrectedRunPreservesConsistency(idx: Index, events: seq<Event>, sha: Sha256)
    requires Consistent(idx)
    requires forall i :: 0 <= i < |events| ==> FetchMatches(events[i])
    ensures Consistent(Run(WholeIdentity, idx, events, sha))
    ensures Size(Run(WholeIdentity, idx, events, sha)) == |Run(WholeIdentity, idx, events, sha).nameToHash|
    decreases |events|
  {
    if |events| != 0 {
      var e := events[0];
      assert FetchMatches(e);
      CorrectedStepPreservesConsistency(e.req, e.fetch, e.write, idx, sha, e.now);
      CorrectedRunPreservesConsistency(Step(WholeIdentity, e.req, e.fetch, e.write, idx, sha, e.now).index, events[1..], sha);
    } else {
      SizeCountsIdentities(idx);
    }
  }

  /**
    After a successful commit, a GET for the computed selector hash answers
    200 with the stored snapshot, whose status carries that same hash.
   */
  lemma ReconciledPolicyIsServed(rule: ConflictRule, req: NamespacedName, p: DnsPolicy, write: WriteOutcome,
                                 idx: Index, sha: Sha256, now: int)
    requires ReachesHashing(p)
    requires Get(idx, SelectorHashOf(p, sha)).None? || !Conflicts(rule, Get(idx, SelectorHashOf(p, sha)).value, p)
    ensures var r := Step(rule, req, Found(p), write, idx, sha, now);
      var resp := HandleGetPolicy(MethodGet, Some(SelectorHashOf(p, sha)), r.index);
      && resp.code == StatusOK
      && resp.body == PolicyJson(Snapshot(p, sha))
      && resp.body.policy.status.selectorHash == SelectorHashOf(p, sha)
  {
    CommitIndexesFirst(rule, req, p, write, idx, sha, now);
    SelectorHashSource(p, sha);
  }

  /**
    Under the bijection, the health report's count of indexed policies is
    also the number of policy identities the index knows.
   */
  lemma HealthzCountsIdentities(httpMethod: string, idx: Index)
    requires Consistent(idx)
    ensures HandleHealthz(httpMethod, idx).body.indexedPolicies == |idx.nameToHash|
  {
    SizeCountsIdentities(idx);
  }

  /**
    In a well-keyed index every key is a 64-digit hash, so a hash of any
    other length, such as "deadbeef", is answered 404.
   */
  lemma ShortHashNotFound(idx: Index, hash: string)
    requires WellKeyed(idx)
    requires hash != "" && |hash| != 64
    ensures HandleGetPolicy(MethodGet, Some(hash), idx).code == StatusNotFound
  {
  }

  /**
    Two identities computing the same selector hash: once the first is
    indexed, the second is refused with DuplicateHash and the index keeps
    the first. As written this needs the names to differ.
   */
  lemma SecondClaimantRejected(rule: ConflictRule, a: DnsPolicy, b: DnsPolicy, write: WriteOutcome,
                               idx: Index, sha: Sha256, now: int)
    requires ReachesHashing(a) && ReachesHashing(b)
    requires SelectorHashOf(a, sha) == SelectorHashOf(b, sha)
    requires Get(idx, SelectorHashOf(a, sha)).None?
    requires rule == NameOnly ==> a.name != b.name && |a.name| != 0
    requires rule == WholeIdentity ==> a.Id() != b.Id()
    ensures var first := Step(rule, a.Id(), Found(a), write, idx, sha, now);
      var second := Step(rule, b.Id(), Found(b), write, first.index, sha, now);
      && second.outcome == Err(DuplicateHash)
      && second.index == first.index
      && Get(second.index, SelectorHashOf(a, sha)) == Some(Snapshot(a, sha))
  {
    var h := SelectorHashOf(a, sha);
    CommitIndexesFirst(rule, a.Id(), a, write, idx, sha, now);
    var first := Step(rule, a.Id(), Found(a), write, idx, sha, now);
    assert Get(first.index, h) == Some(Snapshot(a, sha));
    assert Conflicts(rule, Snapshot(a, sha), b);
    ConflictLeavesIndex(rule, b.Id(), b, write, first.index, sha, now);
  }

  /** A live, finalized policy named `shared` in the given namespace, selecting `app=web`. */
  function SharedPolicy(namespace: string): (p: DnsPolicy)
    ensures ReachesHashing(p)
    ensures p.Id() == NamespacedName(namespace, "shared")
  {
    var spec := DnsPolicySpec(map["app" := "web"], ["ads.example.com"], map[], false);
    DnsPolicy(namespace, "shared", 1, [FinalizerName], false, spec, DnsPolicyStatus("", "", 0, []))
  }

  /**
    The cross-namespace collision on concrete policies: `team-a/shared` is
    reconciled into an empty index, then `team-b/shared` with the same
    selector. As written the second is admitted over the first, and
    reconciling the first's disappearance afterwards removes the second's
    entry while its reverse entry dangles. With the whole identity compared,
    the second is refused and the index stays a bijection.
   */
  lemma CrossNamespaceCollisionExample(sha: Sha256, write: WriteOutcome, now: int)
    ensures var a := SharedPolicy("team-a");
      var b := SharedPolicy("team-b");
      var h := SelectorHashOf(a, sha);
      var first := Reconcile(a.Id(), Found(a), write, Empty(), sha, now);
      var second := Reconcile(b.Id(), Found(b), write, first.index, sha, now);
      var gone := Reconcile(a.Id(), NotFound, write, second.index, sha, now);
      var refused := ReconcileCorrected(b.Id(), Found(b), write, first.index, sha, now);
      && Consistent(first.index)
      && !Consistent(second.index)
      && Get(second.index, h).Some? && Get(second.index, h).value.Id() == b.Id()
      && LookupHash(second.index, a.Id()) == Some(h)
      && Get(gone.index, h) == None
      && LookupHash(gone.index, b.Id()) == Some(h)
      && refused.outcome == Err(DuplicateHash)
      && Consistent(refused.index)
  {
    var a := SharedPolicy("team-a");
    var b := SharedPolicy("team-b");
    var h := SelectorHashOf(a, sha);
    assert SelectorHashOf(b, sha) == h;
    var first := Reconcile(a.Id(), Found(a), write, Empty(), sha, now);
    FirstClaimIndexed(a, write, sha, now);
    CrossNamespaceCollisionBreaksIndex(b, write, first.index, sha, now);
    var second := Reconcile(b.Id(), Found(b), write, first.index, sha, now);
    CommitIndexesFirst(NameOnly, b.Id(), b, write, first.index, sha, now);
    SnapshotRecordsHashes(b, sha);
    assert Get(second.index, h) == Some(Snapshot(b, sha));
    UpsertEffect(first.index, Snapshot(b, sha), h);
    NotFoundDeletes(NameOnly, a.Id(), write, second.index, sha, now);
    ConflictLeavesIndex(WholeIdentity, b.Id(), b, write, first.index, sha, now);
  }

  /** Reconciling a policy into the empty index makes it the consistent owner of its hash. */
  lemma FirstClaimIndexed(a: DnsPolicy, write: WriteOutcome, sha: Sha256, now: int)
    requires ReachesHashing(a)
    ensures var first := Reconcile(a.Id(), Found(a), write, Empty(), sha, now);
      && Consistent(first.index)
      && Owner(first.index, SelectorHashOf(a, sha)) == Some(a.Id())
      && Get(first.index, SelectorHashOf(a, sha)) == Some(Snapshot(a, sha))
  {
    var h := SelectorHashOf(a, sha);
    CommitIndexesFirst(NameOnly, a.Id(), a, write, Empty(), sha, now);
    SnapshotRecordsHashes(a, sha);
    UpsertPreservesConsistency(Empty(), Snapshot(a, sha), h);
  }
}

=== FILE: types.dfy ===
/**
  The shape of a DnsPolicy object: the parts of its metadata the controller
  reads, its spec and its status. Only data lives here.
 */
module Types {

  /** A policy's identity: namespace and name. */
  datatype NamespacedName = NamespacedName(namespace: string, name: string)

  datatype ConditionStatus = ConditionTrue | ConditionFalse | ConditionUnknown

  /**
    One status condition. `lastTransitionTime` is an abstract timestamp
    supplied by the caller.
   */
  datatype Condition = Condition(
    condType: string,
    status: ConditionStatus,
    observedGeneration: int,
    lastTransitionTime: int,
    reason: string,
    message: string)

  datatype DnsPolicySpec = DnsPolicySpec(
    targetSelector: map<string, string>,
    blockList: seq<string>,
    subject: map<string, string>,
    dryRun: bool)

  datatype DnsPolicyStatus = DnsPolicyStatus(
    selectorHash: string,
    specHash: string,
    observedGeneration: int,
    conditions: seq<Condition>)

  /**
    A DnsPolicy object. `deletionRequested` stands for a non-zero deletion
    timestamp; `finalizers` is the object's finalizer list in order.
   */
  datatype DnsPolicy = DnsPolicy(
    namespace: string,
    name: string,
    generation: int,
    finalizers: seq<string>,
    deletionRequested: bool,
    spec: DnsPolicySpec,
    status: DnsPolicyStatus)
  {
    function Id(): NamespacedName {
      NamespacedName(namespace, name)
    }
  }
}

=== FILE: wrappers.dfy ===
/** The optional value used for absent map entries and query parameters. */
module Wrappers {

  datatype Option<T> = None | Some(value: T)
}
